=== FILE: README.md ===
# BeeLazy game state in Dafny

A model of the game logic of BeeLazy, a Kivy arcade game. In the game a bee
flies through obstacles that enter from the right edge of the window. The
model covers the following:

- **The main game** (`src/main_screen.py`, module `MainScreen`). One clock tick
  of `Game.update` steps the bee and then the power-ups. It pushes the bee's
  height into a five-slot window, may spawn one obstacle under the
  score-based count rule, and runs the obstacle loop, which moves, prunes,
  scores and tests for game over. Starting, restarting and the touch
  handlers are modelled too.
- **The bee** (`src/bee.py`, module `BeeSprite`): gravity, lift, the top
  clamp, the shrunken collision box and the frame animation.
- **The bird obstacle** (`src/obstacle.py`, module `ObstacleSprite`): placement,
  leftward motion and its one-row spritesheet, cut 35 to the right.
- **The rectangle obstacle and the power-up** that `src/main_screen.py`
  declares itself (module `Entities`).
- **The spawning rules** (module `Spawning`): `score / 30 or 1`, the
  velocity `(score / 100 + 1) * r` and the window of recent heights.
- **The high-score list** (module `HighScores`): sort, cut and store, and the
  lines of the score board with the current score marked.
- **The earlier stand-alone revision** (`main.py`, module `Classic`): a square
  player that jumps along the ground, one obstacle at a time, and a top-five
  list.
- **The invincibility glow** (`src/invincible_effect.py`, module
  `InvincibleEffect`): a queue of glitter lines, trimmed to five and then
  grown by ten, re-centred on the bee.

Positions and velocities are `real`; the window size `W`, `H` is a pair of
integers, because the source draws `random.randint(50, H - 50)`. Every
random draw is a parameter, with the range `randint` would give it as a
precondition. The clock is the caller: a tick is one function call,
`running` says whether `update` is still scheduled, and each run of the
game-over block is reported as an event.

Python behaviour the model keeps on purpose:

- **Removal while iterating.** `for o in list: ... list.remove(o)` is an
  index-based loop. After a removal the next element slides into the
  current position and is skipped. Scoring and the game-over test still run
  on the obstacle that was just removed (`MainScreen.RemovalSkipsNext`).
- **Repeated game over.** The game-over block runs once per obstacle that
  ends the run in the same tick. Each run saves the score again
  (`MainScreen.GameOverTwice`).
- **Falsy coordinates.** A requested spawn height of `0` counts as absent,
  like `None`.
- **True division.** `score / 30 or 1` gives 1 at score 0 and 1/30 at
  score 1. The target count therefore dips, but the spawn decision itself
  never becomes stricter as the score grows.
- **Kept window.** The window of recent heights is a class attribute and
  survives a restart. A window holding one height counts as level, so the
  first obstacle of a fresh window is aimed at the bee.
- **Shared velocity.** The glow's velocity is the list object of the bee it
  was built from, not a copy. `update` moves the glow to the bee it is
  passed but drifts the lines by the velocity of the bee it was built from,
  so `InvincibleEffect.Update` takes both bees.

The window of recent heights only aims the next obstacle at the bee's height
(`src/main_screen.py:208-221`); it never changes how the bee moves. The
comment at `src/main_screen.py:333` speaks of the top 100 scores, but the
code keeps 1000, and so does the model.

## Model

| member | source | states |
|---|---|---|
| Geometry.PlaceY | src/main_screen.py:47-48 | a truthy requested y is used as is; `None` or `0` gives the random draw, which lies in [50, H - 50] |
| Animation.Grid | src/bee.py:33-42 | the cut frames are exactly the rows x cols grid cells; cell (row, col) sits at position row * cols + col and is cut at y = (rows - row - 1) * frame height |
| Animation.GridCellsAt | src/bee.py:36-42 | the nested loops emit rows * cols frames, and row r, column c lands at offset r * cols + c of the list |
| Animation.Load | src/bee.py:42-46 | the new frames are appended after the old ones, none is dropped, and the texture shows the frame at the unchanged index |
| Animation.Advance | src/bee.py:48-53 | the index moves one forward and wraps to 0 after the last frame; it stays in range and the texture follows it |
| Animation.ShowCurrent | src/bee.py:55-58 | the texture is the frame at the current index; frames and index do not change |
| Animation.FullCycle | src/bee.py:52-52 | after one timer tick per frame the index is back where it started: the animation is a cycle |
| BeeSprite.SheetFrames | src/bee.py:32-42 | the bee sheet gives 2 x 4 = 8 frames of (texW / 2) x (texH / 4), laid out as a grid |
| BeeSprite.New | src/bee.py:15-27 | a new bee is 260 x 260 at (200, H / 2), at rest, untouched, with 8 frames and frame 0 shown |
| BeeSprite.LoadSpritesheet | src/bee.py:29-46 | another load appends 8 more frames without clearing; nothing else changes |
| BeeSprite.UpdateFrame | src/bee.py:48-53 | the index advances modulo the frame count and stays in range |
| BeeSprite.UpdateTexture | src/bee.py:55-58 | the texture becomes the frame at the current index |
| BeeSprite.Update | src/bee.py:76-86 | gravity 0.5 applies only when untouched; x moves by vx and is never clamped; y becomes min(y + vy, H - height / 2), with no lower bound |
| BeeSprite.Fly | src/bee.py:88-91 | touched becomes true and vy becomes 10; nothing else changes |
| BeeSprite.Fall | src/bee.py:93-95 | touched becomes false and the velocity is kept |
| BeeSprite.CheckCollision | src/bee.py:60-74 | a hit iff the bee box, shrunk by 100 on its right and top, strictly overlaps the other box shrunk by 100 on its top; a hit implies the plain boxes overlap |
| BeeSprite.FreeFall | src/bee.py:76-86 | left alone for n ticks the bee loses n / 2 of vy, moves n * vx in x, and ends at or below y + n·vy − n(n+1)/4 |
| BeeSprite.ReloadAndAnimate | src/bee.py:22-53 | a new bee that loads its sheet again has 16 frames; one frame tick moves the index from 0 to 1 |
| ObstacleSprite.SheetFrames | src/obstacle.py:31-40 | six frames of (texW / 6) x texH; frame col is cut at x = col * texW / 6 + 35, y = 0 |
| ObstacleSprite.New | src/obstacle.py:13-25 | a new bird is 260 x 260 with velocity 5 at x = W; a truthy y is kept, else y is in [50, H - 50]; frame 0 is shown |
| ObstacleSprite.LoadSpritesheet | src/obstacle.py:27-44 | another load appends six more frames without clearing |
| ObstacleSprite.UpdateFrame | src/obstacle.py:46-51 | the index advances modulo the frame count and stays in range |
| ObstacleSprite.UpdateTexture | src/obstacle.py:53-56 | the texture is the frame at the index, which does not change |
| ObstacleSprite.Update | src/obstacle.py:58-60 | x drops by the velocity; y and everything else stay |
| ObstacleSprite.Crosses | src/obstacle.py:58-60 | n updates move the bird n * velocity to the left; a new bird entering at x = W is wholly past the left edge once 5n > W + 260 |
| ObstacleSprite.ReloadAndAnimate | src/obstacle.py:13-51 | a new bird that loads its sheet again has 12 frames; one frame tick moves the index from 0 to 1 |
| Entities.NewObstacle | src/main_screen.py:40-51 | the obstacle's size is the drawn entry of 50x50, 50x100 and 50x150; velocity 5, x = W, not yet passed; a truthy y is kept, else y is in [50, H - 50] |
| Entities.Move | src/main_screen.py:53-56 | x drops by the velocity; y and everything else stay |
| Entities.Leaves | src/main_screen.py:53-56 | n moves take an obstacle n * velocity to the left; with positive velocity it is eventually past -width and pruned |
| Entities.NewPowerUp | src/main_screen.py:66-73 | a power-up is 50 x 50 with velocity 7 at x = W and y in [50, H - 50] |
| Entities.MovePowerUp | src/main_screen.py:75-78 | x drops by the velocity; y stays |
| Entities.Remove | src/main_screen.py:203-205 | removing one entity keeps the others in order: the ones before it in place, the ones after it one slot earlier |
| Entities.SweepPowerUps | src/main_screen.py:201-205 | the power-up loop never grows the list |
| Entities.StepPowerUps | src/main_screen.py:195-205 | a power-up spawns only on a zero roll with none live, so at most one exists; a live one moves and is dropped once past -50 |
| Spawning.Target | src/main_screen.py:218-219 | the target count is in (0, 5]; for a positive score it is min(score / 30, 5) |
| Spawning.SpawnRule | src/main_screen.py:218-220 | an obstacle spawns iff none is live at score 0, and iff 30 * live < score and live < 5 otherwise |
| Spawning.SpawnMonotone | src/main_screen.py:218-220 | a spawn allowed at some score is allowed at every higher score with the same live count |
| Spawning.Velocity | src/main_screen.py:222-223 | the spawned velocity lies between 10 and 20 times score / 100 + 1, so it is at least 10 |
| Spawning.VelocityGrows | src/main_screen.py:222-223 | for a fixed draw, a higher score never gives a slower obstacle |
| Spawning.Push | src/main_screen.py:208-208 | the window gains the new height at its end and drops its oldest entry once it holds five |
| Spawning.Hint | src/main_screen.py:210-216 | the bee's height is handed on iff every height in the window is within 5 of the oldest |
| Spawning.StaysLevel | src/main_screen.py:208-214 | a level window that is not yet full stays level while each new height is near its oldest |
| HighScores.SortDesc | src/main_screen.py:332-332 | the result is sorted from best to worst and is a permutation of the input |
| HighScores.TopEntries | src/main_screen.py:333-333 | the first n entries of a sorted list are part of it, and every dropped entry is at most every kept one |
| HighScores.Save | src/main_screen.py:327-335 | the result is the best min(n + 1, keep) scores of the old list plus the new one: sorted, of that length, drawn from them, no dropped score above a kept one, and nothing dropped when it fits |
| HighScores.Put | src/main_screen.py:335-335 | the store holds the list under "scores"; other keys are untouched |
| HighScores.Load | src/main_screen.py:324-325 | the stored list replaces the current one when "scores" exists; otherwise the current list stays |
| HighScores.LoadClassic | main.py:154-159 | the stored list when "scores" exists, otherwise the empty list |
| HighScores.SaveThenLoad | src/main_screen.py:324-335 | loading after saving gives back exactly the saved list, in both revisions |
| HighScores.FirstMatch | src/main_screen.py:296-303 | finds the first position whose score equals the current score, or reports that none does |
| HighScores.Listing | src/main_screen.py:296-305 | reference listing: places increase, each line shows the score at its place, a line is marked iff it is the first match, and unmarked lines have place at most 5; conversely every entry in the top five, and the first match, gets a line |
| HighScores.BoardFrom | src/main_screen.py:296-305 | no contract; properties in HighScores.BoardFromIsListing and HighScores.BoardLines |
| HighScores.Board | src/main_screen.py:296-305 | no contract; properties in HighScores.BoardLines |
| HighScores.BoardFromIsListing | src/main_screen.py:296-305 | the loop with its `highscore_marked` flag builds exactly the reference listing |
| HighScores.BoardLines | src/main_screen.py:296-305 | the board is the reference listing, and at most one of its lines is marked |
| MainScreen.New | src/main_screen.py:87-97 | a new game has a new bee, no obstacles or power-ups, an empty window, score 0, no high scores, and its clock stopped |
| MainScreen.Start | src/main_screen.py:138-155 | starting runs the clock and loads the high scores from the store, keeping the old list when none are stored |
| MainScreen.Restart | src/main_screen.py:169-183 | a restart gives a new bee, no obstacles or power-ups, score 0 and a running clock; the window and the high scores carry over |
| MainScreen.Fly | src/main_screen.py:252-256 | a touch down makes the bee fly; nothing else changes |
| MainScreen.Fall | src/main_screen.py:258-262 | a touch up makes the bee fall; nothing else changes |
| MainScreen.EndRun | src/main_screen.py:239-250 | the game-over block stops the clock, saves the top 1000 scores sorted in the store, and shows the board with the current score marked; obstacles, bee and score stay |
| MainScreen.Visit | src/main_screen.py:227-238 | an obstacle moves and is removed once past -width; the score rises by one exactly when the bee is past its right edge for the first time, which marks it |
| MainScreen.Spawn | src/main_screen.py:208-225 | at most one obstacle is appended, exactly when the count rule allows it, at x = W with the drawn size and velocity at least 10, aimed at the bee when the window is level and the bee's y is not 0 |
| MainScreen.Tick | src/main_screen.py:185-250 | a game whose clock is stopped does not change |
| MainScreen.Sweep | src/main_screen.py:227-250 | no contract; properties in MainScreen.SweepFacts, MainScreen.HitEndsRun, MainScreen.NoCreditBeforePassing, MainScreen.GameOverTwice and MainScreen.RemovalSkipsNext |
| MainScreen.Update | src/main_screen.py:185-250 | no contract; properties in MainScreen.TickInvariants, MainScreen.HitEndsTick and MainScreen.FallenBeeEndsRun |
| MainScreen.SweepFacts | src/main_screen.py:227-250 | the obstacle loop never grows the list or lowers the score; it raises the score only by points of unpassed obstacles; the clock stops exactly when a game-over block ran, leaving the high scores saved |
| MainScreen.TickInvariants | src/main_screen.py:185-250 | a tick keeps at most one power-up and at most five obstacles, adds at most one obstacle, never lowers the score, and stops the clock exactly when the game ended |
| MainScreen.HitEndsRun | src/main_screen.py:227-250 | if the loop reaches obstacle k (nothing before it was removed) and the bee hits it or has fallen, a game-over block runs, even when k is removed on that pass |
| MainScreen.HitEndsTick | src/main_screen.py:185-250 | on a tick, a bee that after its step hits an old obstacle the loop reaches ends the run and stops the clock |
| MainScreen.FallenBeeEndsRun | src/main_screen.py:218-242 | a bee below minus its height ends the run on that tick, since the loop always has an obstacle to test |
| MainScreen.NoCreditBeforePassing | src/main_screen.py:232-237 | no point is scored while the bee is not past any obstacle's right edge |
| MainScreen.RemovalSkipsNext | src/main_screen.py:227-236 | when an obstacle is removed mid-loop, the next one is neither moved nor checked, and the removed one still scores |
| MainScreen.GameOverTwice | src/main_screen.py:239-250 | two obstacles hit in one tick run the game-over block twice and save the same score twice |
| Classic.NewPlayer | main.py:24-29 | the player starts at rest on the ground at x = 200 |
| Classic.Step | main.py:34-43 | vy drops by 1 before the move; the player never ends below the ground, and one that would is put on it with vy = 0 |
| Classic.Jump | main.py:45-46 | vy becomes 30; nothing else changes |
| Classic.TouchDown | main.py:119-121 | a touch jumps iff the player is exactly on the ground |
| Classic.JumpArc | main.py:34-46 | n ticks into a jump from the ground the player is 29 + 28 + ... + (30 - n) up and climbs at 30 - n |
| Classic.JumpLands | main.py:34-46 | a jump stays airborne for 58 ticks, ignoring touches, lands at tick 59 and is at rest at tick 60 |
| Classic.Start | main.py:170-178 | the game starts with its clock running and the stored high scores, or none |
| Classic.Restart | main.py:140-152 | new player, no obstacles, score 0, clock running; the high scores stay |
| Classic.MoveObstacle | main.py:66-67 | x drops by the velocity and y is forced to the ground |
| Classic.Visit | main.py:99-110 | an obstacle moves and is removed once past -width; the score rises by one exactly when the player is past its right edge for the first time; a kept obstacle is marked passed exactly when it was already or the player is now past it |
| Classic.EndRun | main.py:161-167 | game over stops the clock and keeps the top five scores, sorted and stored |
| Classic.Spawn | main.py:92-97 | an obstacle spawns only when none is live, on the ground at x = W, with velocity (score / 100 + 1) * r of at least 10 |
| Classic.Tick | main.py:86-89 | a game whose clock is stopped does not change |
| Classic.Sweep | main.py:99-117 | no contract; properties in Classic.SweepFacts and Classic.HitEndsRun |
| Classic.Update | main.py:89-117 | no contract; properties in Classic.TickInvariants and Classic.HitEndsTick |
| Classic.SweepFacts | main.py:99-117 | the loop never grows the list or lowers the score; it scores only unpassed obstacles; the clock stops exactly when a collision ran the game-over block |
| Classic.HitEndsRun | main.py:99-117 | if the loop reaches obstacle k (nothing before it was removed) and `collide` reports a hit with it, the game-over block runs, even when k is removed on that pass |
| Classic.HitEndsTick | main.py:89-117 | on a tick, a player that after its step collides with an obstacle the loop reaches ends the run and stops the clock |
| Classic.TickInvariants | main.py:89-117 | at most one obstacle is ever live, the player stays at or above the ground, the score never drops, and the clock stops exactly on game over |
| InvincibleEffect.New | src/invincible_effect.py:13-20 | the effect has the bee's size, sits at the bee's centre with its ellipse, and has no glitter |
| InvincibleEffect.TrimOldest | src/invincible_effect.py:30-32 | the oldest lines are dropped until at most five remain; the newest five are kept in order |
| InvincibleEffect.Lines | src/invincible_effect.py:34-41 | each new line starts at the centre and ends at the centre plus its pair of offsets |
| InvincibleEffect.DrawGlitter | src/invincible_effect.py:22-41 | the newest min(n, 5) old lines are kept, followed by ten new ones that start at the centre and end within half the width of it, so between 10 and 15 lines remain |
| InvincibleEffect.Update | src/invincible_effect.py:43-57 | the effect and ellipse move to the centre of the bee passed in; every line restarts there and its end moves by half the velocity of the bee the effect was built from |
| InvincibleEffect.Drift | src/invincible_effect.py:43-57 | line ends are never reset: after n updates every line starts at the bee's centre and its end has moved by n halves of the shared velocity |
| InvincibleEffect.ShiftIsProduct | src/invincible_effect.py:52-57 | n moves by half the velocity add up to n times half the velocity |
| InvincibleEffect.TwoDraws | src/invincible_effect.py:22-41 | two draws on a new effect leave 15 lines, all starting at the centre and ending within half the width |

## Left out

- Rendering: canvas colours, rectangles and ellipses, the scrolling background (`txupdate`, `update_background`), and label and button text and layout. None of them affects game state.
- Audio: the theme song and its play and stop calls. The model assumes the song loaded. `SoundLoader.load` can return `None` (src/main_screen.py:343-346, main.py:173-176). Then the game-over block raises at `self.theme_song.stop()` (src/main_screen.py:247, main.py:114), before the high scores are saved, and a restart raises at `self.theme_song.play()` (src/main_screen.py:177, main.py:145).
- Float rounding: positions and velocities are exact reals. The program's floats round, so a prune or a credit that ties can land one tick apart.
- The clock: the model schedules nothing. A tick is one call, `running` stands for the scheduled `update`, and the frame timers of the sprites are calls of `UpdateFrame`.
- Input binding: the `bind(on_touch_*)` calls. The handlers are the functions `Fly`, `Fall` and `TouchDown`.
- `Game.move` (src/main_screen.py:264-266): it calls `Bee.move`, which src/bee.py does not define, so a touch move would fail.
- Storage: the JSON file and its path. The store is a map from key to score list.
- Textures: pixel content. A frame is the region of the sheet it is cut from, and the sheet's size is a parameter.
- The widget tree: `add_widget`, `remove_widget` and `clear_widgets`. Only the logical lists are modelled.
- src/start_screen.py is not part of this model: it only swaps buttons and calls back into the game.
- Kivy's `collide_widget` (main.py:111) is library code. `Classic` takes it as a parameter.
- Randomness: draws are parameters within their `randint` or `uniform` ranges. The 1-in-1401 power-up chance and the order in which draws are consumed are not modelled.
- Power-up pickup and invincibility: the game never lets power-ups touch the bee (src/main_screen.py:206 is a comment), and the glow is not wired into the game.
- The board text of main.py (`show_highscore_label`, main.py:131-138) is a plain numbered listing with no marking. Only the main game's board is modelled.
- Class-level defaults shared between instances (`bee`, `obstacles`, `power_ups`): there is one game, and they are its fields. The window of recent heights is also a field, and restart keeps it, as the code does.
- Glitter line width (2) and colour: drawing attributes.
- InvincibleEffect.Update: takes the bee the effect was built from as a separate argument. The program reads the velocity through the shared list, so the model is faithful only when `owner` is that bee in its current state.
- Entities.SweepPowerUps: states only that the loop never grows the list. Its exact result for the lists a game reaches, with at most one power-up, is stated by Entities.StepPowerUps.
- MainScreen.Tick: states only the stopped case. A running tick is `MainScreen.Update`, whose properties are stated by MainScreen.TickInvariants, MainScreen.HitEndsTick and MainScreen.FallenBeeEndsRun.
- Classic.Tick: states only the stopped case. A running tick is `Classic.Update`, whose properties are stated by Classic.TickInvariants and Classic.HitEndsTick.

=== FILE: animation.dfy ===
/**
 Spritesheet bookkeeping shared by the bee and the bird obstacle: a sheet is
 cut into a grid of frames, the frames are appended to a list, and a timer
 advances an index through that list. Texture pixels are not modelled; a
 frame is the region of the sheet it was cut from.
 */
module Animation {
  import opened Optional

  /** The part of the sheet a frame shows: offset (x, y) and size w x h. */
  datatype Region = Region(x: real, y: real, w: real, h: real)

  /**
   The animation state of a sprite: its frame list, the current index and the
   texture on display (`None` until the first sheet is loaded).
   */
  datatype Sheet = Sheet(frames: seq<Region>, index: nat, texture: Option<Region>)

  /** A sprite before its sheet is loaded: `frames = []`, `frame_idx = 0`. */
  const Empty: Sheet := Sheet([], 0, None)

  /**
   The frame in row `row`, column `col` of a grid whose frames are fw x fh.
   Rows are counted from the top of the image while the y axis points up, so
   row 0 is cut highest; `dx` shifts every cut to the right.
   */
  function Cell(fw: real, fh: real, rows: nat, row: nat, col: nat, dx: real): Region
    requires row < rows
  {
    Region(col as real * fw + dx, (rows - row - 1) as real * fh, fw, fh)
  }

  /** The inner loop: columns col, col+1, ..., cols-1 of one row. */
  function RowCells(fw: real, fh: real, rows: nat, cols: nat, row: nat, col: nat, dx: real): seq<Region>
    requires row < rows && col <= cols
    decreases cols - col
  {
    if col == cols then []
    else [Cell(fw, fh, rows, row, col, dx)] + RowCells(fw, fh, rows, cols, row, col + 1, dx)
  }

  /** The outer loop: rows row, row+1, ..., rows-1, each row left to right. */
  function GridCells(fw: real, fh: real, rows: nat, cols: nat, row: nat, dx: real): seq<Region>
    requires row <= rows
    decreases rows - row
  {
    if row == rows then []
    else RowCells(fw, fh, rows, cols, row, 0, dx) + GridCells(fw, fh, rows, cols, row + 1, dx)
  }

  lemma {:induction false} RowCellsAt(fw: real, fh: real, rows: nat, cols: nat, row: nat, col: nat, dx: real)
    requires row < rows && col <= cols
    ensures |RowCells(fw, fh, rows, cols, row, col, dx)| == cols - col
    ensures forall j :: col <= j < cols ==>
              RowCells(fw, fh, rows, cols, row, col, dx)[j - col] == Cell(fw, fh, rows, row, j, dx)
    decreases cols - col
  {
    if col < cols {
      RowCellsAt(fw, fh, rows, cols, row, col + 1, dx);
    }
  }

  /** `frames[k]` exists and is `f`. */
  predicate HasAt(frames: seq<Region>, k: int, f: Region) {
    0 <= k < |frames| && frames[k] == f
  }

  /** Where row k of the grid starts in the frame list: k * cols, by repeated addition. */
  function RowStart(k: nat, cols: nat): nat {
    if k == 0 then 0 else cols + RowStart(k - 1, cols)
  }

  lemma {:induction false} RowStartIsProduct(k: nat, cols: nat)
    ensures RowStart(k, cols) == k * cols
  {
    if k > 0 {
      RowStartIsProduct(k - 1, cols);
    }
  }

  lemma {:induction false} GridCellsAt(fw: real, fh: real, rows: nat, cols: nat, row: nat, dx: real)
    requires row <= rows
    ensures |GridCells(fw, fh, rows, cols, row, dx)| == RowStart(rows - row, cols)
    ensures forall r, c :: row <= r < rows && 0 <= c < cols ==>
              HasAt(GridCells(fw, fh, rows, cols, row, dx), RowStart(r - row, cols) + c, Cell(fw, fh, rows, r, c, dx))
    decreases rows - row
  {
    if row < rows {
      var head := RowCells(fw, fh, rows, cols, row, 0, dx);
      var tail := GridCells(fw, fh, rows, cols, row + 1, dx);
      RowCellsAt(fw, fh, rows, cols, row, 0, dx);
      GridCellsAt(fw, fh, rows, cols, row + 1, dx);
      assert GridCells(fw, fh, rows, cols, row, dx) == head + tail;
      forall r, c | row <= r < rows && 0 <= c < cols
        ensures HasAt(GridCells(fw, fh, rows, cols, row, dx), RowStart(r - row, cols) + c, Cell(fw, fh, rows, r, c, dx))
      {
        if r == row {
          assert head[c - 0] == Cell(fw, fh, rows, r, c, dx);
        } else {
          var k := RowStart(r - (row + 1), cols) + c;
          assert RowStart(r - row, cols) + c == cols + k;
          assert HasAt(tail, k, Cell(fw, fh, rows, r, c, dx));
        }
      }
    }
  }

  /**
   True when `frames` lists the cells of a rows x cols grid of fw x fh frames
   row by row, left to right within a row, each cut `dx` right of its cell:
   cell (row, col) sits at position row * cols + col (see RowStartIsProduct).
   */
  ghost predicate IsGrid(frames: seq<Region>, fw: real, fh: real, rows: nat, cols: nat, dx: real) {
    && |frames| == rows * cols
    && forall row, col :: 0 <= row < rows && 0 <= col < cols ==>
         HasAt(frames, RowStart(row, cols) + col, Cell(fw, fh, rows, row, col, dx))
  }

  /**
   The frames of a rows x cols sheet of size texW x texH, row by row and left
   to right within a row, each cut `dx` further right than its grid cell.
   */
  function Grid(texW: real, texH: real, cols: nat, rows: nat, dx: real): (r: seq<Region>)
    requires cols > 0 && rows > 0
    ensures IsGrid(r, texW / cols as real, texH / rows as real, rows, cols, dx)
  {
    GridCellsAt(texW / cols as real, texH / rows as real, rows, cols, 0, dx);
    RowStartIsProduct(rows, cols);
    GridCells(texW / cols as real, texH / rows as real, rows, cols, 0, dx)
  }

  /** A one-row grid is a plain left-to-right strip of frames, all cut at y = 0. */
  lemma SingleRow(frames: seq<Region>, fw: real, fh: real, cols: nat, dx: real)
    requires IsGrid(frames, fw, fh, 1, cols, dx)
    ensures |frames| == cols
    ensures forall col :: 0 <= col < cols ==> frames[col] == Region(col as real * fw + dx, 0.0, fw, fh)
  {
    forall col | 0 <= col < cols
      ensures frames[col] == Region(col as real * fw + dx, 0.0, fw, fh)
    {
      assert HasAt(frames, RowStart(0, cols) + col, Cell(fw, fh, 1, 0, col, dx));
    }
  }

  /**
   `load_spritesheet`'s bookkeeping: the cut frames are appended to the list
   (which is never cleared) and the texture becomes the frame at the current
   index of the grown list.
   */
  function Load(s: Sheet, cut: seq<Region>): (r: Sheet)
    requires s.index < |s.frames| + |cut|
    ensures r.frames == s.frames + cut
    ensures r.index == s.index
    ensures r.texture == Some(r.frames[s.index])
  {
    var frames := s.frames + cut;
    Sheet(frames, s.index, Some(frames[s.index]))
  }

  /**
   `update_frame`: the index moves one step forward, wrapping to 0 after the
   last frame, and the texture follows it.
   */
  function Advance(s: Sheet): (r: Sheet)
    requires |s.frames| > 0
    ensures r.frames == s.frames
    ensures r.index < |r.frames|
    ensures s.index + 1 < |s.frames| ==> r.index == s.index + 1
    ensures s.index + 1 == |s.frames| ==> r.index == 0
    ensures r.texture == Some(r.frames[r.index])
  {
    var i := (s.index + 1) % |s.frames|;
    Sheet(s.frames, i, Some(s.frames[i]))
  }

  /** `update_texture`: the texture is the frame at the current index. */
  function ShowCurrent(s: Sheet): (r: Sheet)
    requires s.index < |s.frames|
    ensures r.frames == s.frames && r.index == s.index
    ensures r.texture == Some(s.frames[s.index])
  {
    s.(texture := Some(s.frames[s.index]))
  }

  /** n timer ticks of `update_frame`. */
  function AdvanceTimes(s: Sheet, n: nat): (r: Sheet)
    requires |s.frames| > 0
    ensures r.frames == s.frames
  {
    if n == 0 then s else Advance(AdvanceTimes(s, n - 1))
  }

  lemma {:induction false} AdvanceCounts(s: Sheet, n: nat)
    requires s.index + n < |s.frames|
    ensures AdvanceTimes(s, n).index == s.index + n
  {
    if n > 0 {
      AdvanceCounts(s, n - 1);
    }
  }

  lemma {:induction false} AdvanceCompose(s: Sheet, m: nat, n: nat)
    requires |s.frames| > 0
    ensures AdvanceTimes(s, m + n) == AdvanceTimes(AdvanceTimes(s, m), n)
  {
    if n > 0 {
      AdvanceCompose(s, m, n - 1);
    }
  }

  /**
   The animation is a cycle: after exactly one advance per frame the index
   is back where it started.
   */
  lemma {:induction false} FullCycle(s: Sheet)
    requires s.index < |s.frames|
    ensures AdvanceTimes(s, |s.frames|).index == s.index
  {
    var m := |s.frames|;
    var toLast := m - 1 - s.index;
    AdvanceCounts(s, toLast);
    var atLast := AdvanceTimes(s, toLast);
    assert AdvanceTimes(s, toLast + 1) == Advance(atLast);
    var atZero := Advance(atLast);
    assert atZero.index == 0;
    AdvanceCounts(atZero, s.index);
    AdvanceCompose(s, toLast + 1, s.index);
  }
}

=== FILE: bee.dfy ===
/**
 The bee of src/bee.py: gravity and lift, a top clamp, the hit test against
 obstacles with its forgiving margins, and the spritesheet animation.
 */
module BeeSprite {
  import opened Optional
  import opened Geometry
  import Animation

  const SIZE: real := 260.0
  const START_X: real := 200.0
  /** Subtracted from vy on every tick the screen is not touched. */
  const GRAVITY: real := 0.5
  /** The upward velocity `fly` sets. */
  const LIFT: real := 10.0
  /** Transparent sprite margin ignored by the hit test. */
  const MARGIN: real := 100.0
  const SHEET_COLS: nat := 2
  const SHEET_ROWS: nat := 4

  datatype Bee = Bee(x: real, y: real, vx: real, vy: real, w: real, h: real,
                     touched: bool, sheet: Animation.Sheet)
  {
    function Box(): Box {
      Geometry.Box(x, y, w, h)
    }
  }

  /** The highest y the bee can reach: half of it may leave the window. */
  function Ceiling(b: Bee, H: int): real {
    H as real - b.h / 2.0
  }

  /** The eight frames of a texW x texH sheet laid out as 4 rows of 2. */
  function SheetFrames(texW: real, texH: real): (r: seq<Animation.Region>)
    ensures |r| == SHEET_COLS * SHEET_ROWS == 8
    ensures Animation.IsGrid(r, texW / 2.0, texH / 4.0, SHEET_ROWS, SHEET_COLS, 0.0)
  {
    Animation.Grid(texW, texH, SHEET_COLS, SHEET_ROWS, 0.0)
  }

  /** A fresh bee: 260 x 260 at (200, H/2), at rest, untouched, first frame shown. */
  function New(H: int, texW: real, texH: real): (b: Bee)
    ensures b.x == START_X && b.y == H as real / 2.0
    ensures b.vx == 0.0 && b.vy == 0.0 && !b.touched
    ensures b.w == SIZE && b.h == SIZE
    ensures b.sheet.frames == SheetFrames(texW, texH)
    ensures b.sheet.index == 0 && b.sheet.texture == Some(b.sheet.frames[0])
  {
    Bee(START_X, H as real / 2.0, 0.0, 0.0, SIZE, SIZE, false,
        Animation.Load(Animation.Empty, SheetFrames(texW, texH)))
  }

  /** `load_spritesheet` called again: eight more frames, the old ones kept. */
  function LoadSpritesheet(b: Bee, texW: real, texH: real): (r: Bee)
    requires b.sheet.index < |b.sheet.frames| + 8
    ensures r.sheet.frames == b.sheet.frames + SheetFrames(texW, texH)
    ensures r.sheet.index == b.sheet.index && r.sheet.texture == Some(r.sheet.frames[b.sheet.index])
    ensures |r.sheet.frames| == |b.sheet.frames| + 8
    ensures r == b.(sheet := r.sheet)
  {
    b.(sheet := Animation.Load(b.sheet, SheetFrames(texW, texH)))
  }

  /** `update_frame`: show the next frame, wrapping after the last. */
  function UpdateFrame(b: Bee): (r: Bee)
    requires |b.sheet.frames| > 0
    ensures r.sheet == Animation.Advance(b.sheet)
    ensures r.sheet.index < |r.sheet.frames|
    ensures r == b.(sheet := r.sheet)
  {
    b.(sheet := Animation.Advance(b.sheet))
  }

  /** `update_texture`: show the frame at the current index. */
  function UpdateTexture(b: Bee): (r: Bee)
    requires b.sheet.index < |b.sheet.frames|
    ensures r.sheet.texture == Some(b.sheet.frames[b.sheet.index])
    ensures r.sheet.frames == b.sheet.frames && r.sheet.index == b.sheet.index
    ensures r == b.(sheet := r.sheet)
  {
    b.(sheet := Animation.ShowCurrent(b.sheet))
  }

  /**
   One tick of `update`: gravity unless touched, then move by the velocity;
   y is clamped from above only and x is never clamped.
   */
  function Update(b: Bee, H: int): (r: Bee)
    ensures r.vy == (if b.touched then b.vy else b.vy - GRAVITY)
    ensures r.x == b.x + b.vx
    ensures r.y == Min(b.y + r.vy, Ceiling(b, H))
    ensures r == b.(x := r.x, y := r.y, vy := r.vy)
  {
    var vy := if b.touched then b.vy else b.vy - GRAVITY;
    var y := b.y + vy;
    var top := Ceiling(b, H);
    b.(x := b.x + b.vx, y := if y >= top then top else y, vy := vy)
  }

  /** `fly`: the screen is touched and the bee gets the fixed lift. */
  function Fly(b: Bee): (r: Bee)
    ensures r.touched && r.vy == LIFT
    ensures r == b.(touched := true, vy := r.vy)
  {
    b.(touched := true, vy := LIFT)
  }

  /** `fall`: the touch ends; the velocity is left as it is. */
  function Fall(b: Bee): (r: Bee)
    ensures !r.touched
    ensures r.vx == b.vx && r.vy == b.vy
    ensures r == b.(touched := false)
  {
    b.(touched := false)
  }

  /**
   `check_collision`: the bee's hit box loses 100 on its right and top edges,
   the other box loses 100 on its top edge, and the two must overlap strictly.
   */
  function CheckCollision(b: Bee, other: Box): (hit: bool)
    ensures hit <==> Overlaps(Geometry.Box(b.x, b.y, b.w - MARGIN, b.h - MARGIN),
                              Geometry.Box(other.x, other.y, other.w, other.h - MARGIN))
    ensures hit ==> Overlaps(b.Box(), other)
  {
    && b.x < other.x + other.w
    && b.x + b.w - MARGIN > other.x
    && b.y < other.y + other.h - MARGIN
    && b.y + b.h - MARGIN > other.y
  }

  /** n ticks without any touch event. */
  function Ticks(b: Bee, H: int, n: nat): Bee {
    if n == 0 then b else Update(Ticks(b, H, n - 1), H)
  }

  /**
   Nothing holds the bee up: left alone for n ticks its velocity drops by
   n/2, x moves on by n*vx, and its height falls at least quadratically,
   because the clamp only ever lowers y.
   */
  lemma {:induction false} FreeFall(b: Bee, H: int, n: nat)
    requires !b.touched
    ensures var r := Ticks(b, H, n);
      && !r.touched && r.vx == b.vx
      && r.vy == b.vy - n as real * GRAVITY
      && r.x == b.x + n as real * b.vx
      && r.y <= b.y + n as real * b.vy - (n * (n + 1)) as real / 4.0
  {
    if n > 0 {
      FreeFall(b, H, n - 1);
      var p := Ticks(b, H, n - 1);
      var m := (n - 1) as real;
      assert n as real * b.vx == m * b.vx + b.vx;
      assert n as real * b.vy == m * b.vy + b.vy;
      assert (n * (n + 1)) as real == ((n - 1) * n) as real + 2.0 * n as real by {
        assert n * (n + 1) == (n - 1) * n + 2 * n;
      }
    }
  }

  /** Touching the screen and ticking lifts the bee by 10, up to the ceiling. */
  lemma FlyThenTick(b: Bee, H: int)
    ensures Update(Fly(b), H).vy == LIFT
    ensures Update(Fly(b), H).y == Min(b.y + LIFT, Ceiling(b, H))
  {
  }

  /** The margins forgive contact: boxes may overlap without a collision. */
  lemma MarginForgiven()
    ensures var b := Bee(0.0, 0.0, 0.0, 0.0, SIZE, SIZE, false, Animation.Empty);
            var o := Geometry.Box(200.0, 0.0, 50.0, 150.0);
            Overlaps(b.Box(), o) && !CheckCollision(b, o)
  {
  }

  /**
   A freshly built bee that loads its sheet once more has sixteen frames,
   and one timer tick moves its index from 0 to 1.
   */
  lemma ReloadAndAnimate(H: int, texW: real, texH: real)
    ensures var b := LoadSpritesheet(New(H, texW, texH), texW, texH);
      && |b.sheet.frames| == 16
      && UpdateFrame(b).sheet.index == 1
      && UpdateTexture(b).sheet.texture == Some(b.sheet.frames[0])
  {
    var b0 := New(H, texW, texH);
    var b := LoadSpritesheet(b0, texW, texH);
    assert |b0.sheet.frames| == 8 && b0.sheet.index == 0;
    assert |b.sheet.frames| == 16 && b.sheet.index == 0;
  }
}

=== FILE: classic.dfy ===
/**
 The earlier, stand-alone game of main.py: a square player that jumps over
 square obstacles running along the ground, one obstacle at a time, with a
 top-five high-score list. Widget collision is Kivy's and is passed in as
 a parameter.
 */
module Classic {
  import opened Geometry
  import Entities
  import HighScores
  import Spawning

  const GROUND: real := 100.0
  const PLAYER_SIZE: real := 50.0
  const START_X: real := 200.0
  const GRAVITY: real := 1.0
  const JUMP: real := 30.0
  const OBSTACLE_SIZE: real := 50.0

  /** The player: position (x, y) and velocity (vx, vy); always 50 x 50. */
  datatype Player = Player(x: real, y: real, vx: real, vy: real)
  {
    function Box(): Box {
      Geometry.Box(x, y, PLAYER_SIZE, PLAYER_SIZE)
    }
  }

  /** A new player stands at rest on the ground at x = 200. */
  function NewPlayer(): (p: Player)
    ensures p.x == START_X && p.y == GROUND && p.vx == 0.0 && p.vy == 0.0
  {
    Player(START_X, GROUND, 0.0, 0.0)
  }

  /**
   `Player.update`: gravity first, then the move, then the ground: a player
   that would end up below it is put back on it at rest.
   */
  function Step(p: Player): (r: Player)
    ensures r.x == p.x + p.vx && r.vx == p.vx
    ensures r.y >= GROUND
    ensures p.y + p.vy - GRAVITY >= GROUND ==> r.y == p.y + p.vy - GRAVITY && r.vy == p.vy - GRAVITY
    ensures p.y + p.vy - GRAVITY < GROUND ==> r.y == GROUND && r.vy == 0.0
  {
    var vy := p.vy - GRAVITY;
    var moved := Player(p.x + p.vx, p.y + vy, p.vx, vy);
    if moved.y < GROUND then moved.(y := GROUND, vy := 0.0) else moved
  }

  /** `jump`: the vertical velocity becomes 30, wherever the player is. */
  function Jump(p: Player): (r: Player)
    ensures r.vy == JUMP && r == p.(vy := r.vy)
  {
    p.(vy := JUMP)
  }

  /** `on_touch_down`: a touch jumps only when the player stands exactly on the ground. */
  function TouchDown(p: Player): (r: Player)
    ensures p.y == GROUND ==> r == Jump(p)
    ensures p.y != GROUND ==> r == p
  {
    if p.y == GROUND then Jump(p) else p
  }

  function Steps(p: Player, n: nat): Player {
    if n == 0 then p else Step(Steps(p, n - 1))
  }

  /** Height gained n ticks into a jump: the sum of the velocities 29, 28, ..., 30 - n. */
  function Rise(n: nat): int {
    if n == 0 then 0 else Rise(n - 1) + 30 - n
  }

  lemma {:induction false} RiseClosed(n: nat)
    ensures 2 * Rise(n) == n * (59 - n)
  {
    if n > 0 {
      RiseClosed(n - 1);
      assert (n - 1) * (59 - (n - 1)) == n * (59 - n) - 60 + 2 * n;
    }
  }

  /** The player stays in the air strictly between take-off and tick 59. */
  lemma RiseBounds(n: nat)
    requires n <= 59
    ensures Rise(n) >= 0
    ensures 0 < n < 59 ==> Rise(n) > 0
    ensures n == 59 ==> Rise(n) == 0
  {
    RiseClosed(n);
    if 0 < n < 59 {
      assert n * (59 - n) >= 59 - n;
    }
  }

  /** One tick of the climb: height k at velocity 31 - n becomes k + 30 - n at 30 - n. */
  lemma StepUp(p: Player, k: int, n: nat)
    requires p == Player(START_X, GROUND + k as real, 0.0, JUMP - (n - 1) as real)
    requires k + 30 - n >= 0
    ensures Step(p) == Player(START_X, GROUND + (k + 30 - n) as real, 0.0, JUMP - n as real)
  {
  }

  /**
   A jump from rest on the ground rises by the sum of its velocities: n
   ticks later the player is Rise(n) above the ground, climbing at 30 - n.
   */
  lemma {:induction false} JumpArc(n: nat)
    requires n <= 59
    ensures Steps(Jump(NewPlayer()), n)
            == Player(START_X, GROUND + Rise(n) as real, 0.0, JUMP - n as real)
  {
    if n > 0 {
      JumpArc(n - 1);
      RiseBounds(n);
      var before := Steps(Jump(NewPlayer()), n - 1);
      assert Rise(n) == Rise(n - 1) + 30 - n;
      StepUp(before, Rise(n - 1), n);
      assert Steps(Jump(NewPlayer()), n) == Step(before);
    }
  }

  /**
   A jump is airborne for 58 ticks, during which touches are ignored, is
   back on the ground at tick 59, and at rest where it started at tick 60.
   */
  lemma JumpLands()
    ensures forall n :: 0 < n < 59 ==> Steps(Jump(NewPlayer()), n).y > GROUND
    ensures forall n :: 0 < n < 59 ==> TouchDown(Steps(Jump(NewPlayer()), n)) == Steps(Jump(NewPlayer()), n)
    ensures Steps(Jump(NewPlayer()), 59).y == GROUND
    ensures Steps(Jump(NewPlayer()), 60) == NewPlayer()
  {
    forall n | 0 < n < 59
      ensures Steps(Jump(NewPlayer()), n).y > GROUND
    {
      JumpArc(n);
      RiseBounds(n);
    }
    JumpArc(59);
    RiseBounds(59);
  }

  /** The game: player, obstacles, score, high scores, their store, and whether the clock runs. */
  datatype Game = Game(
    player: Player,
    obstacles: seq<Entities.Obstacle>,
    score: nat,
    highscores: seq<int>,
    store: HighScores.Store,
    running: bool)

  /** The game after a tick and how many times the game-over block ran in it. */
  datatype Outcome = Outcome(game: Game, overs: nat)

  /** What the game-over block leaves behind: the top five scores, sorted and stored. */
  ghost predicate Saved(g: Game) {
    && HighScores.SortedDesc(g.highscores)
    && |g.highscores| <= HighScores.KEEP_CLASSIC
    && HighScores.KEY in g.store && g.store[HighScores.KEY] == g.highscores
  }

  /**
   `MyApp.build`: a new game whose clock runs at once, with the high scores
   read from the store (an empty list when none were saved).
   */
  function Start(store: HighScores.Store): (g: Game)
    ensures g.player == NewPlayer() && g.obstacles == [] && g.score == 0 && g.running
    ensures g.store == store
    ensures HighScores.KEY in store ==> g.highscores == store[HighScores.KEY]
    ensures HighScores.KEY !in store ==> g.highscores == []
  {
    Game(NewPlayer(), [], 0, HighScores.LoadClassic(store), store, true)
  }

  /** `restart_game`: new player, no obstacles, score 0, clock running; high scores kept. */
  function Restart(g: Game): (r: Game)
    ensures r.player == NewPlayer() && r.obstacles == [] && r.score == 0 && r.running
    ensures r.highscores == g.highscores && r.store == g.store
  {
    g.(player := NewPlayer(), obstacles := [], score := 0, running := true)
  }

  /** `Obstacle.update`: move left by the velocity and stay on the ground. */
  function MoveObstacle(o: Entities.Obstacle): (r: Entities.Obstacle)
    ensures r.x == o.x - o.velocity && r.y == GROUND
    ensures r == o.(x := r.x, y := r.y)
  {
    o.(x := o.x - o.velocity, y := GROUND)
  }

  /** The point for an obstacle is earned the first time the player is past its right edge. */
  predicate Credits(p: Player, o: Entities.Obstacle) {
    p.x > o.x + o.w && !o.passed
  }

  /** One pass of the obstacle loop at position i: move, remove past the left edge, score. */
  function Visit(g: Game, i: nat): (r: Game)
    requires i < |g.obstacles|
    ensures r == g.(obstacles := r.obstacles, score := r.score)
    ensures Entities.Gone(MoveObstacle(g.obstacles[i])) ==> r.obstacles == Entities.Remove(g.obstacles, i)
    ensures !Entities.Gone(MoveObstacle(g.obstacles[i])) ==>
              && |r.obstacles| == |g.obstacles|
              && r.obstacles == g.obstacles[i := r.obstacles[i]]
              && r.obstacles[i] == MoveObstacle(g.obstacles[i]).(passed := r.obstacles[i].passed)
              && r.obstacles[i].passed == (g.obstacles[i].passed || g.player.x > r.obstacles[i].x + r.obstacles[i].w)
    ensures r.score == g.score + (if Credits(g.player, MoveObstacle(g.obstacles[i])) then 1 else 0)
    ensures r.score + Entities.Unpassed(r.obstacles) <= g.score + Entities.Unpassed(g.obstacles)
  {
    var o := MoveObstacle(g.obstacles[i]);
    var credit := Credits(g.player, o);
    var kept := if credit then o.(passed := true) else o;
    Entities.UnpassedAt(g.obstacles, i, kept);
    var obstacles := if Entities.Gone(o) then Entities.Remove(g.obstacles, i) else g.obstacles[i := kept];
    g.(obstacles := obstacles, score := if credit then g.score + 1 else g.score)
  }

  /** The game-over block: stop the clock, keep the top five scores and store them. */
  function EndRun(g: Game): (r: Game)
    ensures !r.running && Saved(r)
    ensures r.highscores == HighScores.Save(g.highscores, g.score, HighScores.KEEP_CLASSIC)
    ensures r == g.(running := false, highscores := r.highscores, store := r.store)
  {
    var hs := HighScores.Save(g.highscores, g.score, HighScores.KEEP_CLASSIC);
    g.(running := false, highscores := hs, store := HighScores.Put(g.store, hs))
  }

  /**
   `for obstacle in self.obstacles` from position i on, with the iterator
   skipping the neighbour of a removed obstacle; `collide` is Kivy's
   `collide_widget` on the two rectangles.
   */
  function Sweep(g: Game, i: nat, collide: (Box, Box) -> bool): Outcome
    decreases |g.obstacles| - i
  {
    if i >= |g.obstacles| then Outcome(g, 0)
    else
      var g1 := Visit(g, i);
      if collide(g.player.Box(), MoveObstacle(g.obstacles[i]).Box()) then
        var rest := Sweep(EndRun(g1), i + 1, collide);
        Outcome(rest.game, rest.overs + 1)
      else
        Sweep(g1, i + 1, collide)
  }

  lemma {:induction false} SweepFacts(g: Game, i: nat, collide: (Box, Box) -> bool)
    ensures var r := Sweep(g, i, collide);
      && |r.game.obstacles| <= |g.obstacles|
      && r.game.score >= g.score
      && r.game.score + Entities.Unpassed(r.game.obstacles) <= g.score + Entities.Unpassed(g.obstacles)
      && r.game.player == g.player
      && (r.overs == 0 ==> r.game.running == g.running && r.game.highscores == g.highscores
                           && r.game.store == g.store)
      && (r.overs > 0 ==> !r.game.running && Saved(r.game))
    decreases |g.obstacles| - i
  {
    if i < |g.obstacles| {
      var g1 := Visit(g, i);
      if collide(g.player.Box(), MoveObstacle(g.obstacles[i]).Box()) {
        SweepFacts(EndRun(g1), i + 1, collide);
      } else {
        SweepFacts(g1, i + 1, collide);
      }
    }
  }

  /**
   A collision ends the run: if the loop reaches obstacle k, because no
   obstacle before it from position i on was removed, and `collide` reports
   a hit with it, the game-over block runs, even when k is removed on that
   very pass.
   */
  lemma {:induction false} HitEndsRun(g: Game, i: nat, k: nat, collide: (Box, Box) -> bool)
    requires i <= k < |g.obstacles|
    requires forall j :: i <= j < k ==> !Entities.Gone(MoveObstacle(g.obstacles[j]))
    requires collide(g.player.Box(), MoveObstacle(g.obstacles[k]).Box())
    ensures Sweep(g, i, collide).overs > 0
    decreases k - i
  {
    if i < k && !collide(g.player.Box(), MoveObstacle(g.obstacles[i]).Box()) {
      var g1 := Visit(g, i);
      assert forall j :: i < j <= k ==> g1.obstacles[j] == g.obstacles[j];
      HitEndsRun(g1, i + 1, k, collide);
    }
  }

  /**
   The spawning part of a tick: a new obstacle at the right edge, on the
   ground, only when none is live, with the same score-scaled velocity as
   the main game.
   */
  function Spawn(g: Game, speed: int, W: int): (r: Game)
    requires 10 <= speed <= 20
    ensures |g.obstacles| >= 1 ==> r == g
    ensures |g.obstacles| == 0 ==>
              && |r.obstacles| == 1
              && var o := r.obstacles[0];
                 && o.x == W as real && o.y == GROUND && o.w == OBSTACLE_SIZE && o.h == OBSTACLE_SIZE
                 && !o.passed && o.velocity == Spawning.Velocity(g.score, speed)
                 && o.velocity >= 10.0
    ensures r == g.(obstacles := r.obstacles)
  {
    if |g.obstacles| < 1 then
      var v := Spawning.Velocity(g.score, speed);
      g.(obstacles := g.obstacles + [Entities.Obstacle(W as real, GROUND, OBSTACLE_SIZE, OBSTACLE_SIZE, v, false)])
    else
      g
  }

  /** `Game.update`: player step, spawn, obstacle loop. */
  function Update(g: Game, speed: int, W: int, collide: (Box, Box) -> bool): Outcome
    requires 10 <= speed <= 20
  {
    Sweep(Spawn(g.(player := Step(g.player)), speed, W), 0, collide)
  }

  /** One clock tick: `update` runs only while it is scheduled. */
  function Tick(g: Game, speed: int, W: int, collide: (Box, Box) -> bool): (r: Outcome)
    requires 10 <= speed <= 20
    ensures !g.running ==> r == Outcome(g, 0)
  {
    if g.running then Update(g, speed, W, collide) else Outcome(g, 0)
  }

  /**
   The per-tick invariants: there is never more than one obstacle, the
   player never ends a tick below the ground, the score never drops and
   rises only by points of obstacles not yet passed, and the clock stops
   exactly when a game-over block ran, leaving the top five saved.
   */
  lemma TickInvariants(g: Game, speed: int, W: int, collide: (Box, Box) -> bool)
    requires 10 <= speed <= 20
    ensures var r := Update(g, speed, W, collide);
      && (|g.obstacles| <= 1 ==> |r.game.obstacles| <= 1)
      && r.game.player == Step(g.player) && r.game.player.y >= GROUND
      && r.game.score >= g.score
      && r.game.score + Entities.Unpassed(r.game.obstacles) <= g.score + Entities.Unpassed(g.obstacles) + 1
      && (r.overs == 0 ==> r.game.running == g.running && r.game.highscores == g.highscores)
      && (r.overs > 0 ==> !r.game.running && Saved(r.game))
  {
    var g1 := g.(player := Step(g.player));
    var g2 := Spawn(g1, speed, W);
    if |g1.obstacles| == 0 {
      assert g2.obstacles == g1.obstacles + [g2.obstacles[0]];
      Entities.UnpassedConcat(g1.obstacles, [g2.obstacles[0]]);
    }
    SweepFacts(g2, 0, collide);
  }

  /**
   On a running tick, a player that after its step collides with an
   obstacle the loop reaches ends the run: the spawn adds an obstacle only
   to an empty list, so the loop sees the old ones as they were.
   */
  lemma HitEndsTick(g: Game, speed: int, W: int, collide: (Box, Box) -> bool, k: nat)
    requires 10 <= speed <= 20
    requires k < |g.obstacles|
    requires forall j :: 0 <= j < k ==> !Entities.Gone(MoveObstacle(g.obstacles[j]))
    requires collide(Step(g.player).Box(), MoveObstacle(g.obstacles[k]).Box())
    ensures Update(g, speed, W, collide).overs > 0
    ensures !Update(g, speed, W, collide).game.running
  {
    var g2 := Spawn(g.(player := Step(g.player)), speed, W);
    HitEndsRun(g2, 0, k, collide);
    TickInvariants(g, speed, W, collide);
  }
}

=== FILE: entities.dfy ===
/**
 The plain rectangle obstacle and the power-up declared in
 src/main_screen.py, which the main game loop spawns and moves.
 */
module Entities {
  import opened Optional
  import opened Geometry

  /** The three obstacle sizes (width, height) one is drawn from. */
  const SIZES: seq<(real, real)> := [(50.0, 50.0), (50.0, 100.0), (50.0, 150.0)]
  /** The obstacle velocity before the game overrides it. */
  const OBSTACLE_VELOCITY: real := 5.0
  const POWER_UP_SIZE: real := 50.0
  const POWER_UP_VELOCITY: real := 7.0

  /** An obstacle; `passed` records that it has already earned its point. */
  datatype Obstacle = Obstacle(x: real, y: real, w: real, h: real, velocity: real, passed: bool)
  {
    function Box(): Box {
      Geometry.Box(x, y, w, h)
    }
  }

  datatype PowerUp = PowerUp(x: real, y: real, w: real, h: real, velocity: real)

  /**
   `Obstacle(y)`: one of the three sizes, velocity 5, not yet passed, at the
   right edge; a truthy y is kept, otherwise y is the draw in [50, H - 50].
   */
  function NewObstacle(y: Option<real>, sizeIndex: int, draw: int, W: int, H: int): (o: Obstacle)
    requires 0 <= sizeIndex < |SIZES|
    requires 50 <= draw <= H - 50
    ensures o.x == W as real && (o.w, o.h) == SIZES[sizeIndex]
    ensures o.velocity == OBSTACLE_VELOCITY && !o.passed
    ensures Truthy(y) ==> o.y == y.value
    ensures !Truthy(y) ==> 50.0 <= o.y <= H as real - 50.0
  {
    var (w, h) := SIZES[sizeIndex];
    Obstacle(W as real, PlaceY(y, draw, H), w, h, OBSTACLE_VELOCITY, false)
  }

  /** `Obstacle.update`: one step left by the velocity, y unchanged. */
  function Move(o: Obstacle): (r: Obstacle)
    ensures r.x == o.x - o.velocity
    ensures r == o.(x := r.x)
  {
    o.(x := o.x - o.velocity)
  }

  /** Entirely past the left edge: the game drops such an obstacle. */
  predicate Gone(o: Obstacle) {
    o.x < -o.w
  }

  function MoveTimes(o: Obstacle, n: nat): Obstacle {
    if n == 0 then o else Move(MoveTimes(o, n - 1))
  }

  /**
   An obstacle with positive velocity leaves the screen: after n moves it
   has travelled n * velocity, and once that exceeds x + w it is gone.
   */
  lemma {:induction false} Leaves(o: Obstacle, n: nat)
    requires o.velocity > 0.0
    ensures MoveTimes(o, n) == o.(x := o.x - n as real * o.velocity)
    ensures n as real * o.velocity > o.x + o.w ==> Gone(MoveTimes(o, n))
  {
    if n > 0 {
      Leaves(o, n - 1);
      assert n as real * o.velocity == (n - 1) as real * o.velocity + o.velocity;
    }
  }

  /** `PowerUp()`: 50 x 50, velocity 7, at the right edge, y drawn in [50, H - 50]. */
  function NewPowerUp(draw: int, W: int, H: int): (p: PowerUp)
    requires 50 <= draw <= H - 50
    ensures p.x == W as real && 50.0 <= p.y <= H as real - 50.0
    ensures p.w == POWER_UP_SIZE && p.h == POWER_UP_SIZE && p.velocity == POWER_UP_VELOCITY
  {
    PowerUp(W as real, draw as real, POWER_UP_SIZE, POWER_UP_SIZE, POWER_UP_VELOCITY)
  }

  /** `PowerUp.update`: one step left by the velocity, y unchanged. */
  function MovePowerUp(p: PowerUp): (r: PowerUp)
    ensures r.x == p.x - p.velocity
    ensures r == p.(x := r.x)
  {
    p.(x := p.x - p.velocity)
  }

  predicate PowerUpGone(p: PowerUp) {
    p.x < -p.w
  }

  /** `s.remove(s[i])` for an element that occurs once: everything else keeps its order. */
  function Remove<T>(s: seq<T>, i: nat): (r: seq<T>)
    requires i < |s|
    ensures |r| == |s| - 1
    ensures forall k :: 0 <= k < i ==> r[k] == s[k]
    ensures forall k :: i <= k < |r| ==> r[k] == s[k + 1]
  {
    s[..i] + s[i + 1..]
  }

  /**
   `for power_up in self.power_ups` from position i on, removing a power-up
   that has left the screen while iterating: the iterator then skips the one
   that slid into the freed position.
   */
  function SweepPowerUps(ps: seq<PowerUp>, i: nat): (r: seq<PowerUp>)
    ensures |r| <= |ps|
    decreases |ps| - i
  {
    if i >= |ps| then ps
    else
      var p := MovePowerUp(ps[i]);
      if PowerUpGone(p) then SweepPowerUps(Remove(ps, i), i + 1)
      else SweepPowerUps(ps[i := p], i + 1)
  }

  /**
   The power-up part of a tick: a new power-up appears only when the roll in
   [0, 1400] is 0 and none is live; then every power-up moves and those past
   the left edge are dropped. So there is never more than one.
   */
  function StepPowerUps(ps: seq<PowerUp>, roll: int, draw: int, W: int, H: int): (r: seq<PowerUp>)
    requires 0 <= roll <= 1400
    requires 50 <= draw <= H - 50
    ensures |ps| <= 1 ==> |r| <= 1
    ensures |r| <= |ps| + 1
    ensures |ps| == 1 ==>
              var p := MovePowerUp(ps[0]);
              r == if PowerUpGone(p) then [] else [p]
    ensures |ps| == 0 && roll != 0 ==> r == []
    ensures |ps| == 0 && roll == 0 ==>
              var p := MovePowerUp(NewPowerUp(draw, W, H));
              r == if PowerUpGone(p) then [] else [p]
  {
    var spawned := if roll == 0 && |ps| < 1 then ps + [NewPowerUp(draw, W, H)] else ps;
    if |spawned| == 1 then
      var p := MovePowerUp(spawned[0]);
      assert Remove(spawned, 0) == [];
      assert spawned[0 := p] == [p];
      assert SweepPowerUps([], 1) == [];
      assert SweepPowerUps([p], 1) == [p];
      SweepPowerUps(spawned, 0)
    else
      SweepPowerUps(spawned, 0)
  }

  /** How many obstacles have not yet earned their point. */
  function Unpassed(s: seq<Obstacle>): nat {
    if s == [] then 0 else (if s[0].passed then 0 else 1) + Unpassed(s[1..])
  }

  lemma {:induction false} UnpassedConcat(a: seq<Obstacle>, b: seq<Obstacle>)
    ensures Unpassed(a + b) == Unpassed(a) + Unpassed(b)
  {
    if a != [] {
      assert (a + b)[0] == a[0];
      assert (a + b)[1..] == a[1..] + b;
      UnpassedConcat(a[1..], b);
    } else {
      assert a + b == b;
    }
  }

  /** 1 for an obstacle whose point is still to be earned. */
  function Mark(o: Obstacle): nat {
    if o.passed then 0 else 1
  }

  /** Taking one obstacle out, or replacing it, changes the count by its own mark only. */
  lemma UnpassedAt(s: seq<Obstacle>, i: nat, o: Obstacle)
    requires i < |s|
    ensures Unpassed(Remove(s, i)) + Mark(s[i]) == Unpassed(s)
    ensures Unpassed(s[i := o]) + Mark(s[i]) == Unpassed(s) + Mark(o)
  {
    assert s == s[..i] + ([s[i]] + s[i + 1..]);
    assert s[i := o] == s[..i] + ([o] + s[i + 1..]);
    UnpassedConcat(s[..i], [s[i]] + s[i + 1..]);
    UnpassedConcat(s[..i], [o] + s[i + 1..]);
    UnpassedConcat([s[i]], s[i + 1..]);
    UnpassedConcat([o], s[i + 1..]);
    UnpassedConcat(s[..i], s[i + 1..]);
  }
}

=== FILE: game.dfy ===
/**
 The game of src/main_screen.py: one tick of `Game.update` over the bee, the
 live obstacles and power-ups, the window of recent bee heights, the score
 and the high-score list, plus starting and restarting a run. The clock is
 the caller: a tick is one call, and a game over is reported as an event.
 */
module MainScreen {
  import opened Optional
  import Animation
  import BeeSprite
  import Entities
  import Spawning
  import HighScores

  /** The game-over block ran: the score it saved and the board it showed. */
  datatype Event = GameOver(score: nat, board: seq<HighScores.Line>)

  /**
   The state one `Game` owns. `running` says whether the clock still calls
   `update`; `recent` is the window of the bee's latest heights.
   */
  datatype Game = Game(
    bee: BeeSprite.Bee,
    obstacles: seq<Entities.Obstacle>,
    powerUps: seq<Entities.PowerUp>,
    recent: Spawning.Recent,
    score: nat,
    highscores: seq<int>,
    store: HighScores.Store,
    running: bool)

  /** The random numbers one tick may draw. */
  datatype Draws = Draws(powerUpRoll: int, powerUpY: int, sizeIndex: int, obstacleY: int, speed: int)

  /** The ranges of the `random.randint` calls a tick makes. */
  predicate ValidDraws(d: Draws, H: int) {
    && 0 <= d.powerUpRoll <= 1400
    && 50 <= d.powerUpY <= H - 50
    && 0 <= d.sizeIndex < |Entities.SIZES|
    && 50 <= d.obstacleY <= H - 50
    && 10 <= d.speed <= 20
  }

  /** The game after a tick and the game-over blocks that ran during it. */
  datatype Outcome = Outcome(game: Game, events: seq<Event>)

  /** What every run of the game-over block leaves behind. */
  ghost predicate Saved(g: Game) {
    && HighScores.SortedDesc(g.highscores)
    && |g.highscores| <= HighScores.KEEP
    && HighScores.KEY in g.store && g.store[HighScores.KEY] == g.highscores
  }

  /** A new game before its start button is pressed. */
  function New(H: int, texW: real, texH: real): (g: Game)
    ensures g.obstacles == [] && g.powerUps == [] && g.recent == []
    ensures g.score == 0 && g.highscores == [] && !g.running
    ensures g.bee == BeeSprite.New(H, texW, texH)
  {
    Game(BeeSprite.New(H, texW, texH), [], [], [], 0, [], map[], false)
  }

  /**
   `start_game`: the clock starts calling `update`, and the high scores are
   read from the persisted store, which the game keeps for saving.
   */
  function Start(g: Game, persisted: HighScores.Store): (r: Game)
    ensures r.running && r.store == persisted
    ensures r.highscores == HighScores.Load(persisted, g.highscores)
    ensures r == g.(running := true, store := persisted, highscores := r.highscores)
  {
    g.(running := true, store := persisted, highscores := HighScores.Load(persisted, g.highscores))
  }

  /**
   `restart_game`: a new bee, no obstacles or power-ups, score 0 and the
   clock running again; the window of recent heights and the high scores
   carry over.
   */
  function Restart(g: Game, H: int, texW: real, texH: real): (r: Game)
    ensures r.bee == BeeSprite.New(H, texW, texH)
    ensures r.obstacles == [] && r.powerUps == [] && r.score == 0 && r.running
    ensures r.recent == g.recent && r.highscores == g.highscores && r.store == g.store
  {
    g.(bee := BeeSprite.New(H, texW, texH), obstacles := [], powerUps := [], score := 0, running := true)
  }

  /** The touch handlers delegate to the bee. */
  function Fly(g: Game): (r: Game)
    ensures r.bee == BeeSprite.Fly(g.bee) && r == g.(bee := r.bee)
  {
    g.(bee := BeeSprite.Fly(g.bee))
  }

  function Fall(g: Game): (r: Game)
    ensures r.bee == BeeSprite.Fall(g.bee) && r == g.(bee := r.bee)
  {
    g.(bee := BeeSprite.Fall(g.bee))
  }

  /**
   The game-over block: the clock stops, the score is added to the high
   scores, which are saved, and the board is shown with the score marked.
   */
  function EndRun(g: Game): (r: (Game, Event))
    ensures !r.0.running && Saved(r.0)
    ensures r.0.highscores == HighScores.Save(g.highscores, g.score, HighScores.KEEP)
    ensures r.0 == g.(running := false, highscores := r.0.highscores, store := r.0.store)
    ensures r.1 == GameOver(g.score, HighScores.Board(r.0.highscores, Some(g.score)))
  {
    var hs := HighScores.Save(g.highscores, g.score, HighScores.KEEP);
    (g.(running := false, highscores := hs, store := HighScores.Put(g.store, hs)),
     GameOver(g.score, HighScores.Board(hs, Some(g.score))))
  }

  /** The game-over test for one obstacle: a hit, or the bee fell below -height. */
  predicate Ends(b: BeeSprite.Bee, o: Entities.Obstacle) {
    BeeSprite.CheckCollision(b, o.Box()) || b.y < -b.h
  }

  /** The obstacle earns its point now: the bee is past its right edge for the first time. */
  predicate Credits(b: BeeSprite.Bee, o: Entities.Obstacle) {
    b.x > o.x + o.w && !o.passed
  }

  /**
   One pass of the obstacle loop at position i: the obstacle moves, earns
   its point if the bee is past it for the first time, and is removed at
   once if it is past the left edge. Only the list and the score change, and
   the score only by spending the obstacle's one point.
   */
  function Visit(g: Game, i: nat): (r: Game)
    requires i < |g.obstacles|
    ensures r == g.(obstacles := r.obstacles, score := r.score)
    ensures Entities.Gone(Entities.Move(g.obstacles[i])) ==> r.obstacles == Entities.Remove(g.obstacles, i)
    ensures !Entities.Gone(Entities.Move(g.obstacles[i])) ==>
              && |r.obstacles| == |g.obstacles|
              && r.obstacles == g.obstacles[i := r.obstacles[i]]
              && r.obstacles[i] == Entities.Move(g.obstacles[i]).(passed := r.obstacles[i].passed)
              && r.obstacles[i].passed == (g.obstacles[i].passed || g.bee.x > r.obstacles[i].x + r.obstacles[i].w)
    ensures r.score == g.score + (if Credits(g.bee, Entities.Move(g.obstacles[i])) then 1 else 0)
    ensures r.score + Entities.Unpassed(r.obstacles) <= g.score + Entities.Unpassed(g.obstacles)
  {
    var o := Entities.Move(g.obstacles[i]);
    var credit := Credits(g.bee, o);
    var kept := if credit then o.(passed := true) else o;
    Entities.UnpassedAt(g.obstacles, i, kept);
    var obstacles := if Entities.Gone(o) then Entities.Remove(g.obstacles, i) else g.obstacles[i := kept];
    g.(obstacles := obstacles, score := if credit then g.score + 1 else g.score)
  }

  /**
   `for obstacle in self.obstacles` from position i on. Removing an obstacle
   during the loop makes the iterator skip the next one; scoring and the
   game-over test still see the removed obstacle, and the game-over block
   may run for several obstacles in the same tick.
   */
  function Sweep(g: Game, i: nat): (r: Outcome)
    decreases |g.obstacles| - i
  {
    if i >= |g.obstacles| then Outcome(g, [])
    else
      var g1 := Visit(g, i);
      if Ends(g.bee, Entities.Move(g.obstacles[i])) then
        var (g2, e) := EndRun(g1);
        var rest := Sweep(g2, i + 1);
        Outcome(rest.game, [e] + rest.events)
      else
        Sweep(g1, i + 1)
  }

  /**
   The spawning part of a tick: at most one new obstacle, when the count
   rule allows it, aimed at the bee if its recent heights are level, and
   with a velocity scaled by the score.
   */
  function Spawn(g: Game, d: Draws, W: int, H: int): (r: Game)
    requires ValidDraws(d, H)
    ensures !Spawning.ShouldSpawn(g.score, |g.obstacles|) ==> r == g
    ensures Spawning.ShouldSpawn(g.score, |g.obstacles|) ==>
              && |r.obstacles| == |g.obstacles| + 1
              && r.obstacles[..|g.obstacles|] == g.obstacles
              && var o := r.obstacles[|g.obstacles|];
                 && o.x == W as real && (o.w, o.h) == Entities.SIZES[d.sizeIndex] && !o.passed
                 && o.velocity == Spawning.Velocity(g.score, d.speed) && o.velocity >= 10.0
                 && o.y == (if Spawning.Level(g.recent) && g.bee.y != 0.0 then g.bee.y else d.obstacleY as real)
    ensures r == g.(obstacles := r.obstacles)
  {
    if Spawning.ShouldSpawn(g.score, |g.obstacles|) then
      var hint := Spawning.Hint(g.recent, g.bee.y);
      Spawning.SpawnHeight(g.recent, g.bee.y, d.obstacleY, H);
      var o := Entities.NewObstacle(hint, d.sizeIndex, d.obstacleY, W, H);
      var placed := o.(velocity := Spawning.Velocity(g.score, d.speed));
      assert (g.obstacles + [placed])[..|g.obstacles|] == g.obstacles;
      g.(obstacles := g.obstacles + [placed])
    else
      g
  }

  /**
   `Game.update`: bee step, power-ups, window of heights, spawn, and the
   obstacle loop, in that order. Power-ups never touch the bee.
   */
  function Update(g: Game, d: Draws, W: int, H: int): Outcome
    requires ValidDraws(d, H)
  {
    var bee := BeeSprite.Update(g.bee, H);
    var powerUps := Entities.StepPowerUps(g.powerUps, d.powerUpRoll, d.powerUpY, W, H);
    var g1 := g.(bee := bee, powerUps := powerUps, recent := Spawning.Push(g.recent, bee.y));
    Sweep(Spawn(g1, d, W, H), 0)
  }

  /** One clock tick: `update` runs only while the clock is scheduled. */
  function Tick(g: Game, d: Draws, W: int, H: int): (r: Outcome)
    requires ValidDraws(d, H)
    ensures !g.running ==> r == Outcome(g, [])
  {
    if g.running then Update(g, d, W, H) else Outcome(g, [])
  }

  /**
   What the obstacle loop does from position i on: the list only shrinks;
   the score only grows, and only by spending an obstacle's one point; the
   bee, power-ups and window stay; the clock and high scores change exactly
   when a game-over block runs, which leaves them stopped and saved.
   */
  lemma {:induction false} SweepFacts(g: Game, i: nat)
    ensures var r := Sweep(g, i);
      && |r.game.obstacles| <= |g.obstacles|
      && r.game.score >= g.score
      && r.game.score + Entities.Unpassed(r.game.obstacles) <= g.score + Entities.Unpassed(g.obstacles)
      && r.game.bee == g.bee && r.game.powerUps == g.powerUps && r.game.recent == g.recent
      && (r.events == [] ==> r.game.running == g.running && r.game.highscores == g.highscores
                             && r.game.store == g.store)
      && (r.events != [] ==> !r.game.running && Saved(r.game))
    decreases |g.obstacles| - i
  {
    if i < |g.obstacles| {
      var g1 := Visit(g, i);
      if Ends(g.bee, Entities.Move(g.obstacles[i])) {
        var (g2, e) := EndRun(g1);
        SweepFacts(g2, i + 1);
      } else {
        SweepFacts(g1, i + 1);
      }
    }
  }

  /**
   The per-tick invariants: at most one power-up and at most five obstacles
   stay true, at most one obstacle is added, the score never drops and rises
   only by points of obstacles not yet passed, and the clock stops exactly
   when a game-over block ran, leaving the high scores saved.
   */
  lemma TickInvariants(g: Game, d: Draws, W: int, H: int)
    requires ValidDraws(d, H)
    ensures var r := Update(g, d, W, H);
      && (|g.powerUps| <= 1 ==> |r.game.powerUps| <= 1)
      && (|g.obstacles| <= Spawning.MAX_OBSTACLES ==> |r.game.obstacles| <= Spawning.MAX_OBSTACLES)
      && |r.game.obstacles| <= |g.obstacles| + 1
      && r.game.score >= g.score
      && r.game.score + Entities.Unpassed(r.game.obstacles) <= g.score + Entities.Unpassed(g.obstacles) + 1
      && r.game.bee == BeeSprite.Update(g.bee, H)
      && (r.events == [] ==> r.game.running == g.running && r.game.highscores == g.highscores)
      && (r.events != [] ==> !r.game.running && Saved(r.game))
  {
    var bee := BeeSprite.Update(g.bee, H);
    var powerUps := Entities.StepPowerUps(g.powerUps, d.powerUpRoll, d.powerUpY, W, H);
    var g1 := g.(bee := bee, powerUps := powerUps, recent := Spawning.Push(g.recent, bee.y));
    var g2 := Spawn(g1, d, W, H);
    Spawning.SpawnRule(g1.score, |g1.obstacles|);
    if g2 != g1 {
      assert g2.obstacles == g1.obstacles + [g2.obstacles[|g1.obstacles|]] by {
        assert g2.obstacles == g2.obstacles[..|g1.obstacles|] + [g2.obstacles[|g1.obstacles|]];
      }
      Entities.UnpassedConcat(g1.obstacles, [g2.obstacles[|g1.obstacles|]]);
    }
    SweepFacts(g2, 0);
  }

  /**
   A hit ends the run: if the loop reaches obstacle k, because no obstacle
   before it from position i on was removed (a removal would make the
   iterator skip a neighbour), and the bee hits k or has fallen, the
   game-over block runs. k itself may be removed on that very pass.
   */
  lemma {:induction false} HitEndsRun(g: Game, i: nat, k: nat)
    requires i <= k < |g.obstacles|
    requires forall j :: i <= j < k ==> !Entities.Gone(Entities.Move(g.obstacles[j]))
    requires Ends(g.bee, Entities.Move(g.obstacles[k]))
    ensures Sweep(g, i).events != []
    decreases k - i
  {
    if i < k && !Ends(g.bee, Entities.Move(g.obstacles[i])) {
      var g1 := Visit(g, i);
      assert forall j :: i < j <= k ==> g1.obstacles[j] == g.obstacles[j];
      HitEndsRun(g1, i + 1, k);
    }
  }

  /**
   On a running tick, a bee that after its step hits an obstacle the loop
   reaches ends the run: the spawn only appends, so the loop sees the old
   obstacles first.
   */
  lemma HitEndsTick(g: Game, d: Draws, W: int, H: int, k: nat)
    requires ValidDraws(d, H)
    requires k < |g.obstacles|
    requires forall j :: 0 <= j < k ==> !Entities.Gone(Entities.Move(g.obstacles[j]))
    requires Ends(BeeSprite.Update(g.bee, H), Entities.Move(g.obstacles[k]))
    ensures Update(g, d, W, H).events != []
    ensures !Update(g, d, W, H).game.running
  {
    var bee := BeeSprite.Update(g.bee, H);
    var powerUps := Entities.StepPowerUps(g.powerUps, d.powerUpRoll, d.powerUpY, W, H);
    var g1 := g.(bee := bee, powerUps := powerUps, recent := Spawning.Push(g.recent, bee.y));
    var g2 := Spawn(g1, d, W, H);
    assert forall j :: 0 <= j <= k ==> g2.obstacles[j] == g.obstacles[j] by {
      if g2 != g1 {
        assert forall j :: 0 <= j < |g1.obstacles| ==> g2.obstacles[..|g1.obstacles|][j] == g2.obstacles[j];
      }
    }
    HitEndsRun(g2, 0, k);
    TickInvariants(g, d, W, H);
  }

  /**
   A bee that has dropped below minus its own height ends the run on that
   very tick: there is always at least one obstacle for the loop to test.
   */
  lemma FallenBeeEndsRun(g: Game, d: Draws, W: int, H: int)
    requires ValidDraws(d, H)
    requires var b := BeeSprite.Update(g.bee, H); b.y < -b.h
    ensures Update(g, d, W, H).events != []
    ensures !Update(g, d, W, H).game.running
  {
    var bee := BeeSprite.Update(g.bee, H);
    var powerUps := Entities.StepPowerUps(g.powerUps, d.powerUpRoll, d.powerUpY, W, H);
    var g1 := g.(bee := bee, powerUps := powerUps, recent := Spawning.Push(g.recent, bee.y));
    var g2 := Spawn(g1, d, W, H);
    assert |g2.obstacles| > 0;
    assert Ends(g2.bee, Entities.Move(g2.obstacles[0]));
    TickInvariants(g, d, W, H);
  }

  /**
   No point is scored while the bee is not past any obstacle: if, from
   position i on, every obstacle's right edge after its move is at or beyond
   the bee, the loop leaves the score alone.
   */
  lemma {:induction false} NoCreditBeforePassing(g: Game, i: nat)
    requires forall k :: i <= k < |g.obstacles| ==>
               g.bee.x <= Entities.Move(g.obstacles[k]).x + g.obstacles[k].w
    ensures Sweep(g, i).game.score == g.score
    decreases |g.obstacles| - i
  {
    if i < |g.obstacles| {
      var g1 := Visit(g, i);
      if Ends(g.bee, Entities.Move(g.obstacles[i])) {
        var (g2, e) := EndRun(g1);
        NoCreditBeforePassing(g2, i + 1);
      } else {
        NoCreditBeforePassing(g1, i + 1);
      }
    }
  }

  /** A bee at (200, 100) with the standard size, at rest. */
  function SampleBee(): BeeSprite.Bee {
    BeeSprite.Bee(200.0, 100.0, 0.0, 0.0, BeeSprite.SIZE, BeeSprite.SIZE, false, Animation.Empty)
  }

  /**
   Removing during iteration skips the next obstacle: the first obstacle
   leaves the screen and is removed, and the second is neither moved nor
   checked. The removed obstacle still earns its point.
   */
  lemma RemovalSkipsNext()
    ensures var a := Entities.Obstacle(-60.0, 500.0, 50.0, 50.0, 5.0, false);
            var b := Entities.Obstacle(1000.0, 500.0, 50.0, 50.0, 5.0, false);
            var g := Game(SampleBee(), [a, b], [], [], 0, [], map[], true);
            var r := Sweep(g, 0);
            r.game.obstacles == [b] && r.game.score == 1 && r.events == []
  {
    var a := Entities.Obstacle(-60.0, 500.0, 50.0, 50.0, 5.0, false);
    var b := Entities.Obstacle(1000.0, 500.0, 50.0, 50.0, 5.0, false);
    assert Entities.Remove([a, b], 0) == [b];
  }

  /**
   The game-over block runs once per hitting obstacle: two obstacles hit in
   the same tick stop the run twice and save the same score twice.
   */
  lemma GameOverTwice()
    ensures var o := Entities.Obstacle(300.0, 100.0, 50.0, 150.0, 10.0, false);
            var g := Game(SampleBee(), [o, o], [], [], 0, [], map[], true);
            var r := Sweep(g, 0);
            |r.events| == 2 && r.game.highscores == [0, 0] && !r.game.running
  {
    var o := Entities.Obstacle(300.0, 100.0, 50.0, 150.0, 10.0, false);
    var g := Game(SampleBee(), [o, o], [], [], 0, [], map[], true);
    assert Ends(SampleBee(), Entities.Move(o));
    var g1 := Visit(g, 0);
    var (g2, e1) := EndRun(g1);
    assert g2.highscores == [0];
    var g3 := Visit(g2, 1);
    var (g4, e2) := EndRun(g3);
    assert g4.highscores == [0, 0];
    assert Sweep(g4, 2) == Outcome(g4, []);
    assert Sweep(g2, 1) == Outcome(g4, [e2]);
  }
}

=== FILE: geometry.dfy ===
/** An optional value, used for Python's `int | None` parameters. */
module Optional {

  datatype Option<+T> = None | Some(value: T)
}

/**
 Rectangles of the play field and the placement rule shared by everything
 that enters from the right edge of the window.
 */
module Geometry {
  import opened Optional

  /** A widget's rectangle: lower-left corner (x, y), width w, height h. */
  datatype Box = Box(x: real, y: real, w: real, h: real)

  /** Strict overlap on both axes: boxes that only touch do not overlap. */
  predicate Overlaps(a: Box, b: Box) {
    && a.x < b.x + b.w && b.x < a.x + a.w
    && a.y < b.y + b.h && b.y < a.y + a.h
  }

  function Min(a: real, b: real): real {
    if a <= b then a else b
  }

  function MinNat(a: nat, b: nat): nat {
    if a <= b then a else b
  }

  function Abs(a: real): real {
    if a < 0.0 then -a else a
  }

  /** Python truthiness of an optional coordinate: `None` and `0` are both falsy. */
  predicate Truthy(y: Option<real>) {
    y.Some? && y.value != 0.0
  }

  /**
   The vertical placement `y if y else random.randint(50, H - 50)`: a truthy
   requested y is kept, anything else falls back to the random draw.
   */
  function PlaceY(y: Option<real>, draw: int, H: int): (r: real)
    requires 50 <= draw <= H - 50
    ensures Truthy(y) ==> r == y.value
    ensures !Truthy(y) ==> 50.0 <= r <= H as real - 50.0
  {
    if Truthy(y) then y.value else draw as real
  }
}

=== FILE: highscores.dfy ===
/**
 The high-score list of both revisions: a flat list of scores kept sorted
 from best to worst and cut to a fixed length, persisted under the key
 "scores" of a small key/value store, and the lines of the score board.
 */
module HighScores {
  import opened Optional
  import opened Geometry

  /** The persisted document: one list of scores per key. */
  type Store = map<string, seq<int>>

  const KEY: string := "scores"
  /** The list length src/main_screen.py keeps. */
  const KEEP: nat := 1000
  /** The list length main.py keeps. */
  const KEEP_CLASSIC: nat := 5
  /** Unmarked board lines are shown for the first five places only. */
  const BOARD_PLACES: nat := 5

  ghost predicate SortedDesc(s: seq<int>) {
    forall i, j :: 0 <= i < j < |s| ==> s[i] >= s[j]
  }

  /** The head of a list sorted from best to worst beats everything after it. */
  lemma HeadIsMax(s: seq<int>)
    requires SortedDesc(s) && s != []
    ensures forall j :: 0 <= j < |s[1..]| ==> s[0] >= s[1..][j]
  {
    forall j | 0 <= j < |s[1..]|
      ensures s[0] >= s[1..][j]
    {
      assert s[1..][j] == s[j + 1];
    }
  }

  /** A bound on every element of `pool` and on x bounds every element of a permutation of both. */
  lemma Dominates(h: int, t: seq<int>, pool: seq<int>, x: int)
    requires forall j :: 0 <= j < |pool| ==> h >= pool[j]
    requires h >= x
    requires multiset(t) == multiset(pool) + multiset{x}
    ensures forall k :: 0 <= k < |t| ==> h >= t[k]
  {
    forall k | 0 <= k < |t|
      ensures h >= t[k]
    {
      assert t[k] in multiset(t);
      if t[k] != x {
        assert t[k] in multiset(pool);
        var j :| 0 <= j < |pool| && pool[j] == t[k];
      }
    }
  }

  /** Insert x into a list sorted from best to worst. */
  function Insert(x: int, s: seq<int>): (r: seq<int>)
    requires SortedDesc(s)
    ensures SortedDesc(r)
    ensures multiset(r) == multiset(s) + multiset{x}
  {
    if s == [] || x >= s[0] then
      [x] + s
    else
      var tail := Insert(x, s[1..]);
      HeadIsMax(s);
      Dominates(s[0], tail, s[1..], x);
      assert s == [s[0]] + s[1..];
      [s[0]] + tail
  }

  /** `list.sort(reverse=True)` on integers. */
  function SortDesc(s: seq<int>): (r: seq<int>)
    ensures SortedDesc(r)
    ensures multiset(r) == multiset(s)
    ensures |r| == |s|
  {
    if s == [] then []
    else
      assert s == [s[0]] + s[1..];
      var r := Insert(s[0], SortDesc(s[1..]));
      assert |r| == |multiset(r)|;
      r
  }

  /**
   The first n entries of a list sorted from best to worst: together with the
   rest they make up the whole list, and nothing in the rest beats them.
   */
  lemma TopEntries(all: seq<int>, n: nat)
    requires SortedDesc(all) && n <= |all|
    ensures SortedDesc(all[..n])
    ensures multiset(all[..n]) <= multiset(all)
    ensures multiset(all) - multiset(all[..n]) == multiset(all[n..])
    ensures forall i, y :: 0 <= i < n && y in multiset(all) - multiset(all[..n]) ==> y <= all[..n][i]
  {
    assert all == all[..n] + all[n..];
    assert multiset(all) == multiset(all[..n]) + multiset(all[n..]);
    forall i, y | 0 <= i < n && y in multiset(all[n..])
      ensures y <= all[..n][i]
    {
      var j :| 0 <= j < |all[n..]| && all[n..][j] == y;
      assert all[n + j] == y;
    }
  }

  /**
   `save_highscores`' list logic: append the score, sort from best to worst,
   keep the first `keep` entries. The result is sorted, drawn from the old
   list plus the score, as long as `keep` allows, and nothing dropped beats
   anything kept.
   */
  function Save(hs: seq<int>, score: int, keep: nat): (r: seq<int>)
    ensures SortedDesc(r)
    ensures |r| == MinNat(|hs| + 1, keep)
    ensures multiset(r) <= multiset(hs + [score])
    ensures |hs| + 1 <= keep ==> multiset(r) == multiset(hs + [score])
    ensures forall i, y :: 0 <= i < |r| && y in multiset(hs + [score]) - multiset(r) ==> y <= r[i]
  {
    var all := SortDesc(hs + [score]);
    var n := MinNat(|hs| + 1, keep);
    TopEntries(all, n);
    var r := all[..n];
    assert multiset(all) == multiset(hs + [score]);
    assert n == |all| ==> r == all;
    r
  }

  /** `store.put("scores", scores=hs)`. */
  function Put(store: Store, hs: seq<int>): (r: Store)
    ensures KEY in r && r[KEY] == hs
    ensures forall k :: k in store && k != KEY ==> k in r && r[k] == store[k]
  {
    store[KEY := hs]
  }

  /** src/main_screen.py's `load_highscores`: a missing key leaves the list as it was. */
  function Load(store: Store, current: seq<int>): (r: seq<int>)
    ensures KEY in store ==> r == store[KEY]
    ensures KEY !in store ==> r == current
  {
    if KEY in store then store[KEY] else current
  }

  /** main.py's `load_highscores`: a missing key gives the empty list. */
  function LoadClassic(store: Store): (r: seq<int>)
    ensures KEY in store ==> r == store[KEY]
    ensures KEY !in store ==> r == []
  {
    if KEY in store then store[KEY] else []
  }

  /** Whatever is saved is what the next load returns. */
  lemma SaveThenLoad(store: Store, hs: seq<int>, score: int, keep: nat, current: seq<int>)
    ensures Load(Put(store, Save(hs, score, keep)), current) == Save(hs, score, keep)
    ensures LoadClassic(Put(store, Save(hs, score, keep))) == Save(hs, score, keep)
  {
  }

  /** Saving the score 0 into an empty list gives [0]. */
  lemma SaveFirstScore()
    ensures Save([], 0, KEEP) == [0]
  {
    assert SortDesc([0]) == [0];
  }

  /** One line of the board: the 1-based place, the score, and the highlight. */
  datatype Line = Line(place: nat, score: int, marked: bool)

  /**
   `show_highscore_label`'s loop from index i on, `marked` telling whether a
   line was already highlighted: the first entry equal to the current score is
   highlighted wherever it is; other entries are listed for the top five only.
   */
  function BoardFrom(hs: seq<int>, current: Option<int>, i: nat, marked: bool): seq<Line>
    requires i <= |hs|
    decreases |hs| - i
  {
    if i == |hs| then []
    else if current == Some(hs[i]) && !marked then
      [Line(i + 1, hs[i], true)] + BoardFrom(hs, current, i + 1, true)
    else if i < BOARD_PLACES then
      [Line(i + 1, hs[i], false)] + BoardFrom(hs, current, i + 1, marked)
    else
      BoardFrom(hs, current, i + 1, marked)
  }

  /** The lines of the board for the current score (`None` from the start screen). */
  function Board(hs: seq<int>, current: Option<int>): seq<Line> {
    BoardFrom(hs, current, 0, false)
  }

  /** The index of the first entry equal to the current score, if any. */
  function FirstMatch(hs: seq<int>, current: Option<int>, i: nat): (r: Option<nat>)
    requires i <= |hs|
    ensures r.Some? ==> i <= r.value < |hs| && current == Some(hs[r.value])
    ensures r.Some? ==> forall j :: i <= j < r.value ==> current != Some(hs[j])
    ensures r.None? ==> forall j :: i <= j < |hs| ==> current != Some(hs[j])
    decreases |hs| - i
  {
    if i == |hs| then None
    else if current == Some(hs[i]) then Some(i)
    else FirstMatch(hs, current, i + 1)
  }

  /** Some line of the board is for place p. */
  predicate Shows(lines: seq<Line>, p: int) {
    exists k :: 0 <= k < |lines| && lines[k].place == p
  }

  /**
   A line for place i + 1 put in front of a board that shows every listed
   place above i + 1 gives a board that shows every listed place above i.
   */
  lemma ShowsCons(hs: seq<int>, first: Option<nat>, i: nat, line: Line, rest: seq<Line>)
    requires line.place == i + 1
    requires forall p :: i + 1 < p <= |hs| && (p <= BOARD_PLACES || first == Some(p - 1)) ==> Shows(rest, p)
    ensures forall p :: i < p <= |hs| && (p <= BOARD_PLACES || first == Some(p - 1)) ==> Shows([line] + rest, p)
  {
    var r := [line] + rest;
    assert r[0] == line;
    forall p | i + 1 < p <= |hs| && (p <= BOARD_PLACES || first == Some(p - 1))
      ensures Shows(r, p)
    {
      assert Shows(rest, p);
      var k :| 0 <= k < |rest| && rest[k].place == p;
      assert r[k + 1] == rest[k];
    }
  }

  /**
   The board described without a running flag: entry j is listed iff it is in
   the top five or is the first match, and it is highlighted iff it is the
   first match.
   */
  function Listing(hs: seq<int>, first: Option<nat>, i: nat): (r: seq<Line>)
    requires i <= |hs|
    ensures forall k :: 0 <= k < |r| ==> i < r[k].place <= |hs| && r[k].score == hs[r[k].place - 1]
    ensures forall k :: 0 <= k < |r| ==> (r[k].marked <==> first == Some(r[k].place - 1))
    ensures forall k :: 0 <= k < |r| ==> r[k].marked || r[k].place <= BOARD_PLACES
    ensures forall k, l :: 0 <= k < l < |r| ==> r[k].place < r[l].place
    ensures forall p :: i < p <= |hs| && (p <= BOARD_PLACES || first == Some(p - 1)) ==> Shows(r, p)
    decreases |hs| - i
  {
    if i == |hs| then []
    else
      var rest := Listing(hs, first, i + 1);
      if i < BOARD_PLACES || first == Some(i) then
        var r := [Line(i + 1, hs[i], first == Some(i))] + rest;
        ShowsCons(hs, first, i, r[0], rest);
        r
      else rest
  }

  lemma {:induction false} BoardFromIsListing(hs: seq<int>, current: Option<int>, i: nat, marked: bool)
    requires i <= |hs|
    requires var first := FirstMatch(hs, current, 0);
             marked <==> (first.Some? && first.value < i)
    ensures BoardFrom(hs, current, i, marked) == Listing(hs, FirstMatch(hs, current, 0), i)
    decreases |hs| - i
  {
    if i < |hs| {
      var first := FirstMatch(hs, current, 0);
      if current == Some(hs[i]) && !marked {
        assert first == Some(i);
        BoardFromIsListing(hs, current, i + 1, true);
      } else {
        assert first != Some(i);
        BoardFromIsListing(hs, current, i + 1, marked);
      }
    }
  }

  /**
   The board lists every top-five entry and the first entry equal to the
   current score, in order; exactly that entry is highlighted, so at most one
   line is, and every other line is numbered at most 5.
   */
  lemma BoardLines(hs: seq<int>, current: Option<int>)
    ensures Board(hs, current) == Listing(hs, FirstMatch(hs, current, 0), 0)
    ensures var r := Board(hs, current);
      forall k, l :: 0 <= k < |r| && 0 <= l < |r| && r[k].marked && r[l].marked ==> k == l
  {
    BoardFromIsListing(hs, current, 0, false);
  }
}

=== FILE: invincible.dfy ===
/**
 The glowing circle drawn around an invincible bee (src/invincible_effect.py):
 an ellipse centred on the bee and a short trail of glitter lines that start
 at the centre and drift with the bee's velocity.
 */
module InvincibleEffect {
  import opened Geometry
  import BeeSprite

  /** How many glitter lines one call of `draw_glitter` adds. */
  const GLITTERS_PER_DRAW: nat := 10
  /** How many of the older lines survive a new draw. */
  const KEPT: nat := 5

  /** A glitter line from (x0, y0) to (x1, y1). */
  datatype Glitter = Glitter(x0: real, y0: real, x1: real, y1: real)

  /**
   The effect: size w x h, position (x, y) at the bee's centre, the ellipse
   position, and the glitter lines oldest first.
   */
  datatype Effect = Effect(w: real, h: real, x: real, y: real, ellipseX: real, ellipseY: real, glitters: seq<Glitter>)

  /** The effect is as large as the bee and placed at the bee's centre, with no glitter yet. */
  function New(b: BeeSprite.Bee): (e: Effect)
    ensures e.w == b.w && e.h == b.h
    ensures e.x == b.x + b.w / 2.0 && e.y == b.y + b.h / 2.0
    ensures e.ellipseX == e.x && e.ellipseY == e.y
    ensures e.glitters == []
  {
    var x := b.x + b.w / 2.0;
    var y := b.y + b.h / 2.0;
    Effect(b.w, b.h, x, y, x, y, [])
  }

  /** The loop that pops the oldest line while more than five are left. */
  function TrimOldest(gs: seq<Glitter>): (r: seq<Glitter>)
    ensures |gs| <= KEPT ==> r == gs
    ensures |gs| > KEPT ==> |r| == KEPT
    ensures r == gs[|gs| - |r|..]
    decreases |gs|
  {
    if |gs| > KEPT then TrimOldest(gs[1..]) else gs
  }

  /** A line drawn now: from the centre to an offset of at most half the width on each axis. */
  predicate Fresh(e: Effect, g: Glitter) {
    && g.x0 == e.x && g.y0 == e.y
    && Abs(g.x1 - e.x) <= e.w / 2.0 && Abs(g.y1 - e.y) <= e.w / 2.0
  }

  /** The ten lines of one draw, one per pair of uniform offsets. */
  function Lines(e: Effect, offsets: seq<(real, real)>): (r: seq<Glitter>)
    ensures |r| == |offsets|
    ensures forall k :: 0 <= k < |r| ==> r[k] == Glitter(e.x, e.y, e.x + offsets[k].0, e.y + offsets[k].1)
  {
    if offsets == [] then [] else [Glitter(e.x, e.y, e.x + offsets[0].0, e.y + offsets[0].1)] + Lines(e, offsets[1..])
  }

  /**
   `draw_glitter`: the oldest lines go until at most five are left, then ten
   new lines are added. Both offsets of a line are drawn from
   [-w/2, w/2]: the glitter length is half the width on both axes.
   */
  function DrawGlitter(e: Effect, offsets: seq<(real, real)>): (r: Effect)
    requires |offsets| == GLITTERS_PER_DRAW
    requires forall k :: 0 <= k < |offsets| ==> Abs(offsets[k].0) <= e.w / 2.0 && Abs(offsets[k].1) <= e.w / 2.0
    ensures r == e.(glitters := r.glitters)
    ensures |r.glitters| == MinNat(|e.glitters|, KEPT) + GLITTERS_PER_DRAW
    ensures GLITTERS_PER_DRAW <= |r.glitters| <= KEPT + GLITTERS_PER_DRAW
    ensures r.glitters[..|r.glitters| - GLITTERS_PER_DRAW] == e.glitters[|e.glitters| - MinNat(|e.glitters|, KEPT)..]
    ensures forall k :: |r.glitters| - GLITTERS_PER_DRAW <= k < |r.glitters| ==> Fresh(e, r.glitters[k])
  {
    var kept := TrimOldest(e.glitters);
    var drawn := Lines(e, offsets);
    assert (kept + drawn)[..|kept|] == kept;
    e.(glitters := kept + drawn)
  }

  /**
   `update`: the effect and its ellipse move to the centre of the bee passed
   in, every line restarts there and its end drifts by half the velocity.
   The velocity is read from the bee the effect was built from, whose list
   the effect shares: `owner` is that bee as it is now, `b` the one passed.
   */
  function Update(e: Effect, owner: BeeSprite.Bee, b: BeeSprite.Bee): (r: Effect)
    ensures r.w == e.w && r.h == e.h
    ensures r.x == b.x + b.w / 2.0 && r.y == b.y + b.h / 2.0
    ensures r.ellipseX == r.x && r.ellipseY == r.y
    ensures |r.glitters| == |e.glitters|
    ensures forall k :: 0 <= k < |r.glitters| ==>
              r.glitters[k] == Glitter(r.x, r.y, e.glitters[k].x1 + owner.vx / 2.0, e.glitters[k].y1 + owner.vy / 2.0)
  {
    var x := b.x + b.w / 2.0;
    var y := b.y + b.h / 2.0;
    Effect(e.w, e.h, x, y, x, y, Follow(e.glitters, x, y, owner.vx / 2.0, owner.vy / 2.0))
  }

  function Follow(gs: seq<Glitter>, x: real, y: real, dx: real, dy: real): (r: seq<Glitter>)
    ensures |r| == |gs|
    ensures forall k :: 0 <= k < |r| ==> r[k] == Glitter(x, y, gs[k].x1 + dx, gs[k].y1 + dy)
  {
    if gs == [] then [] else [Glitter(x, y, gs[0].x1 + dx, gs[0].y1 + dy)] + Follow(gs[1..], x, y, dx, dy)
  }

  /**
   Two draws on a new effect leave fifteen lines, five of the first draw
   and all ten of the second, every one of them starting at the centre and
   ending within half the width of it.
   */
  lemma TwoDraws(b: BeeSprite.Bee, first: seq<(real, real)>, second: seq<(real, real)>)
    requires |first| == GLITTERS_PER_DRAW && |second| == GLITTERS_PER_DRAW
    requires forall k :: 0 <= k < |first| ==> Abs(first[k].0) <= b.w / 2.0 && Abs(first[k].1) <= b.w / 2.0
    requires forall k :: 0 <= k < |second| ==> Abs(second[k].0) <= b.w / 2.0 && Abs(second[k].1) <= b.w / 2.0
    ensures var e := New(b);
            var r := DrawGlitter(DrawGlitter(e, first), second);
            && |r.glitters| == 15
            && forall k :: 0 <= k < |r.glitters| ==> Fresh(e, r.glitters[k])
  {
    var e := New(b);
    var e1 := DrawGlitter(e, first);
    var r := DrawGlitter(e1, second);
    forall k | 0 <= k < |r.glitters|
      ensures Fresh(e, r.glitters[k])
    {
      if k < KEPT {
        assert r.glitters[k] == e1.glitters[k + 5];
      }
    }
  }

  /** n calls of `update` while neither bee changes. */
  function UpdateTimes(e: Effect, owner: BeeSprite.Bee, b: BeeSprite.Bee, n: nat): (r: Effect)
    ensures |r.glitters| == |e.glitters|
  {
    if n == 0 then e else Update(UpdateTimes(e, owner, b, n - 1), owner, b)
  }

  /** a moved n times by d. */
  function Shift(a: real, d: real, n: nat): real {
    if n == 0 then a else Shift(a, d, n - 1) + d
  }

  /** Moving n times by d moves by n * d. */
  lemma {:induction false} ShiftIsProduct(a: real, d: real, n: nat)
    ensures Shift(a, d, n) == a + (n as real) * d
  {
    if n > 0 {
      ShiftIsProduct(a, d, n - 1);
      assert ((n - 1) as real) * d + d == (n as real) * d;
    }
  }

  /**
   The ends of the lines are never reset: after n updates line k still
   starts at the bee's centre and its end has drifted by n halves of the
   shared velocity.
   */
  lemma {:induction false} Drift(e: Effect, owner: BeeSprite.Bee, b: BeeSprite.Bee, n: nat, k: nat)
    requires n > 0 && k < |e.glitters|
    ensures UpdateTimes(e, owner, b, n).glitters[k]
            == Glitter(b.x + b.w / 2.0, b.y + b.h / 2.0,
                       Shift(e.glitters[k].x1, owner.vx / 2.0, n),
                       Shift(e.glitters[k].y1, owner.vy / 2.0, n))
  {
    if n > 1 {
      Drift(e, owner, b, n - 1, k);
    }
  }
}

=== FILE: obstacle.dfy ===
/**
 The animated bird obstacle of src/obstacle.py: it enters at the right edge,
 slides left, and cycles through six frames cut from a one-row sheet.
 */
module ObstacleSprite {
  import opened Optional
  import opened Geometry
  import Animation

  const SIZE: real := 260.0
  const VELOCITY: real := 5.0
  const SHEET_COLS: nat := 6
  /** Every frame is cut this far right of its grid cell. */
  const CUT_SHIFT: real := 35.0

  datatype Obstacle = Obstacle(x: real, y: real, w: real, h: real, velocity: real,
                               sheet: Animation.Sheet)

  /**
   The six frames of a texW x texH strip: frame `col` is (texW/6) x texH and
   is cut at x = col * texW/6 + 35, y = 0.
   */
  function SheetFrames(texW: real, texH: real): (r: seq<Animation.Region>)
    ensures |r| == SHEET_COLS
    ensures forall col :: 0 <= col < |r| ==>
              r[col] == Animation.Region(col as real * (texW / 6.0) + CUT_SHIFT, 0.0, texW / 6.0, texH)
  {
    var r := Animation.Grid(texW, texH, SHEET_COLS, 1, CUT_SHIFT);
    Animation.SingleRow(r, texW / 6.0, texH / 1.0, SHEET_COLS, CUT_SHIFT);
    r
  }

  /**
   A new obstacle: 260 x 260, velocity 5, at the right edge x = W; it keeps a
   truthy requested y and otherwise takes the random draw in [50, H - 50].
   */
  function New(y: Option<real>, draw: int, W: int, H: int, texW: real, texH: real): (o: Obstacle)
    requires 50 <= draw <= H - 50
    ensures o.x == W as real && o.w == SIZE && o.h == SIZE && o.velocity == VELOCITY
    ensures Truthy(y) ==> o.y == y.value
    ensures !Truthy(y) ==> 50.0 <= o.y <= H as real - 50.0
    ensures o.sheet.frames == SheetFrames(texW, texH) && o.sheet.index == 0
    ensures o.sheet.texture == Some(o.sheet.frames[0])
  {
    Obstacle(W as real, PlaceY(y, draw, H), SIZE, SIZE, VELOCITY,
             Animation.Load(Animation.Empty, SheetFrames(texW, texH)))
  }

  /** `load_spritesheet` called again: six more frames, the old ones kept. */
  function LoadSpritesheet(o: Obstacle, texW: real, texH: real): (r: Obstacle)
    requires o.sheet.index < |o.sheet.frames| + SHEET_COLS
    ensures r.sheet.frames == o.sheet.frames + SheetFrames(texW, texH)
    ensures r.sheet.index == o.sheet.index && r.sheet.texture == Some(r.sheet.frames[o.sheet.index])
    ensures |r.sheet.frames| == |o.sheet.frames| + SHEET_COLS
    ensures r == o.(sheet := r.sheet)
  {
    o.(sheet := Animation.Load(o.sheet, SheetFrames(texW, texH)))
  }

  /** `update_frame`: show the next frame, wrapping after the last. */
  function UpdateFrame(o: Obstacle): (r: Obstacle)
    requires |o.sheet.frames| > 0
    ensures r.sheet == Animation.Advance(o.sheet)
    ensures r.sheet.index < |r.sheet.frames|
    ensures r == o.(sheet := r.sheet)
  {
    o.(sheet := Animation.Advance(o.sheet))
  }

  /** `update_texture`: show the frame at the current index, which stays. */
  function UpdateTexture(o: Obstacle): (r: Obstacle)
    requires o.sheet.index < |o.sheet.frames|
    ensures r.sheet.texture == Some(o.sheet.frames[o.sheet.index])
    ensures r.sheet.frames == o.sheet.frames && r.sheet.index == o.sheet.index
    ensures r == o.(sheet := r.sheet)
  {
    o.(sheet := Animation.ShowCurrent(o.sheet))
  }

  /** `update`: one step left by the velocity, y unchanged. */
  function Update(o: Obstacle): (r: Obstacle)
    ensures r.x == o.x - o.velocity
    ensures r == o.(x := r.x)
  {
    o.(x := o.x - o.velocity)
  }

  function UpdateTimes(o: Obstacle, n: nat): Obstacle {
    if n == 0 then o else Update(UpdateTimes(o, n - 1))
  }

  /**
   The bird crosses the window at constant speed: n updates take it
   n * velocity to the left, and a new bird entering at x = W is wholly past
   the left edge once 5 * n exceeds W + 260.
   */
  lemma {:induction false} Crosses(o: Obstacle, n: nat)
    ensures UpdateTimes(o, n) == o.(x := o.x - n as real * o.velocity)
    ensures o.velocity == VELOCITY && o.w == SIZE && VELOCITY * n as real > o.x + SIZE ==>
              UpdateTimes(o, n).x < -UpdateTimes(o, n).w
  {
    if n > 0 {
      Crosses(o, n - 1);
      assert n as real * o.velocity == (n - 1) as real * o.velocity + o.velocity;
    }
  }

  /**
   A freshly built obstacle that loads its sheet once more has twelve frames,
   and one timer tick moves its index from 0 to 1.
   */
  lemma ReloadAndAnimate(y: Option<real>, draw: int, W: int, H: int, texW: real, texH: real)
    requires 50 <= draw <= H - 50
    ensures var o := LoadSpritesheet(New(y, draw, W, H, texW, texH), texW, texH);
      && |o.sheet.frames| == 12
      && UpdateFrame(o).sheet.index == 1
      && UpdateTexture(o).sheet.texture == Some(o.sheet.frames[0])
  {
    var o0 := New(y, draw, W, H, texW, texH);
    var o := LoadSpritesheet(o0, texW, texH);
    assert |o0.sheet.frames| == 6 && o0.sheet.index == 0;
    assert |o.sheet.frames| == 12 && o.sheet.index == 0;
  }
}

=== FILE: spawning.dfy ===
/**
 When and where the main game spawns an obstacle: the score-based count
 rule, the score-based speed-up, and the five-slot window of recent bee
 heights that biases the spawn height towards a bee that stays level.
 */
module Spawning {
  import opened Optional
  import opened Geometry

  const MAX_OBSTACLES: nat := 5
  /** One more obstacle is allowed per this many points. */
  const POINTS_PER_OBSTACLE: nat := 30
  /** Length of the window of recent bee heights (`deque(maxlen=5)`). */
  const RECENT: nat := 5
  /** How far a height may stray from the oldest one and still count as level. */
  const LEVEL_RANGE: real := 5.0

  /**
   `min(score / 30 or 1, MAX_OBSTACLES)` with true division: a quotient of
   0.0 is falsy and becomes 1.
   */
  function Target(score: nat): (t: real)
    ensures 0.0 < t <= MAX_OBSTACLES as real
    ensures score > 0 ==> t == Min(score as real / 30.0, 5.0)
  {
    var q := score as real / POINTS_PER_OBSTACLE as real;
    Min(if q == 0.0 then 1.0 else q, MAX_OBSTACLES as real)
  }

  /** `len(self.obstacles) < obstacles`. */
  predicate ShouldSpawn(score: nat, live: nat) {
    (live as real) < Target(score)
  }

  /**
   The count rule in integers: at score 0 a new obstacle comes only when
   none is live; otherwise while 30 * live < score and live < 5.
   */
  lemma SpawnRule(score: nat, live: nat)
    ensures ShouldSpawn(score, live) <==>
              if score == 0 then live == 0
              else POINTS_PER_OBSTACLE * live < score && live < MAX_OBSTACLES
  {
    if score > 0 {
      assert (live as real) < score as real / 30.0 <==> 30 * live < score;
    }
  }

  /** The spawn decision only gets more permissive as the score grows. */
  lemma SpawnMonotone(score: nat, score': nat, live: nat)
    requires score <= score'
    requires ShouldSpawn(score, live)
    ensures ShouldSpawn(score', live)
  {
    SpawnRule(score, live);
    SpawnRule(score', live);
  }

  /**
   The raw target is not monotone: the falsy quotient at score 0 gives 1,
   while score 1 gives 1/30. The decision above is unaffected, because no
   live count lies between them.
   */
  lemma TargetDips()
    ensures Target(1) < Target(0)
  {
  }

  /** `score / 100 + 1`. */
  function Reinforcement(score: nat): real {
    score as real / 100.0 + 1.0
  }

  /**
   A spawned obstacle's velocity, `reinforcement * random.randint(10, 20)`:
   between 10 and 20 times the reinforcement, so never below 10.
   */
  function Velocity(score: nat, draw: int): (v: real)
    requires 10 <= draw <= 20
    ensures 10.0 * Reinforcement(score) <= v <= 20.0 * Reinforcement(score)
    ensures v >= 10.0
  {
    var rf := Reinforcement(score);
    var d := draw as real;
    Scaled(rf, d - 10.0);
    Scaled(rf, 20.0 - d);
    rf * d
  }

  /** A product of two non-negative factors is non-negative. */
  lemma Scaled(a: real, b: real)
    requires a >= 0.0 && b >= 0.0
    ensures a * b >= 0.0
  {
  }

  /** For a fixed draw, a higher score never gives a slower obstacle. */
  lemma VelocityGrows(score: nat, score': nat, draw: int)
    requires 10 <= draw <= 20
    requires score <= score'
    ensures Velocity(score, draw) <= Velocity(score', draw)
  {
    var d := draw as real;
    var gain := Reinforcement(score') - Reinforcement(score);
    assert gain == (score' - score) as real / 100.0 >= 0.0;
    assert Velocity(score', draw) - Velocity(score, draw) == gain * d;
    Scaled(gain, d);
  }

  /** The window of recent bee heights, oldest first. */
  type Recent = w: seq<real> | |w| <= RECENT

  /**
   `deque.append` on a deque with maxlen 5: the new height goes to the end,
   and the oldest one drops out once five are held.
   */
  function Push(w: Recent, y: real): (r: Recent)
    ensures |r| == if |w| < RECENT then |w| + 1 else RECENT
    ensures r[|r| - 1] == y
    ensures r == (w + [y])[|w| + 1 - |r|..]
  {
    if |w| < RECENT then w + [y] else w[1..] + [y]
  }

  /** `pos == w[0] or abs(w[0] - pos) <= 5`. */
  predicate Near(oldest: real, y: real) {
    y == oldest || Abs(oldest - y) <= LEVEL_RANGE
  }

  /** The `all(...)` test: every height is near the oldest one (true when empty). */
  predicate Level(w: seq<real>) {
    forall k :: 0 <= k < |w| ==> Near(w[0], w[k])
  }

  /** The y handed to the new obstacle: the bee's height if level, else `None`. */
  function Hint(w: seq<real>, beeY: real): (r: Option<real>)
    ensures r.Some? <==> Level(w)
    ensures r.Some? ==> r.value == beeY
  {
    if Level(w) then Some(beeY) else None
  }

  /**
   Where the spawned obstacle is placed: at the bee's height when the window
   is level and that height is not 0, otherwise at the random draw.
   */
  lemma SpawnHeight(w: seq<real>, beeY: real, draw: int, H: int)
    requires 50 <= draw <= H - 50
    ensures PlaceY(Hint(w, beeY), draw, H) == if Level(w) && beeY != 0.0 then beeY else draw as real
  {
  }

  /**
   A window holding a single height is always level: the first tick of a
   fresh window always aims the obstacle at the bee.
   */
  lemma FirstHeightIsLevel(y: real)
    ensures Level(Push([], y))
  {
  }

  /** A window stays level while every new height stays near its oldest. */
  lemma StaysLevel(w: Recent, y: real)
    requires Level(w) && |w| < RECENT
    requires |w| > 0 ==> Near(w[0], y)
    ensures Level(Push(w, y))
  {
    var r := Push(w, y);
    assert r == w + [y];
    forall k | 0 <= k < |r|
      ensures Near(r[0], r[k])
    {
      if k < |w| {
        assert r[k] == w[k];
      }
    }
  }
}
